=== FILE: README.md ===
# simple-task-manager: the task lifecycle core in Dafny

This project models the core of a Redis-backed task scheduler (a task record with
retry and run budgets). It covers:

- the task record and its state machine: `enqueued`, `delayed`, `completed` and `failed`;
- the retry backoff policy;
- the single atomic batch that persists a task and queues its id;
- the expiration trigger that re-submits a delayed task;
- the scheduler's `addTask`, which wraps a definition in a task and gives it an id;
- the error records that a failing task keeps.

Everything is written as immutable datatypes and pure functions, one module per
source file:

| module | file | source |
|---|---|---|
| `Wrappers` | wrappers.dfy | `Option` (an `undefined`-able value) and `Result` |
| `Json` | json.dfy | lib/parsers/json.js, as an abstract codec `Codec<T>` and the per-value round-trip hypothesis `RoundTrips` |
| `Errors` | errors.dfy | lib/error.js |
| `Backoff` | backoff.dfy | lib/backoff.js, over `real` with `.Floor` |
| `Tasks` | task.dfy | lib/task.js |
| `RedisBackend` | redis.dfy | lib/backends/redis.js: `addTask` and the expiration trigger |
| `Scheduler` | scheduler.dfy | lib/scheduler.js: `addTask` and the `task.created` wiring |

Three things become parameters:

- **The clock.** `Complete` takes `clock` and `now`. `NewTaskRunError` takes `now`.
- **Randomness.** The backoff jitter draw is `r`, with `0 <= r < 1`. The generated id is `uid`, the next answer of `getUid`.
- **The cron parser.** `CronClock` gives the milliseconds until a cron expression's next fire.

The store is two maps: one from string keys to string values, and one from list
names to sequences of ids. JSON text is produced and read by a `Json.Codec`. A
lemma that needs a round trip assumes `Json.RoundTrips(codec, v)` for the one
record `v` it prints: decoding the encoded record gives it back, and the text is
not empty. No law about every value is assumed, and `Json.RoundTripsCanHold` shows
the hypothesis can be met for any value. `toJSON` copies the task's error list as
it is, objects included. Only `serialize`, through `JSON.stringify`
(lib/parsers/json.js:4), writes each entry in its wire form (`Errors.OnWire`): a
parse error pushed by `deserialize` is a `SyntaxError` object, which has no
enumerable own properties and is written as `{}`. `Tasks.Printed` is that printed
form of a record, so the text `serialize` produces is the encoding of
`Printed(ToJSON(t))`.

Behaviour of the code that a reader might not expect:

- **No duplicate guard.** The backend's `addTask` does not check for an existing record. It neither sets a ttl trigger nor emits an event (lib/backends/redis.js:73-78). Adding a task twice overwrites its record and queues its id twice (`RedisBackend.AddTaskTwice`).
- **The commit rule.** `updateState('commit')` completes a task exactly when `runs >= maxRuns`, whatever its ttl. A task with ttl 0 and runs left is enqueued again.
- **A failed parse keeps default fields.** `deserialize` on text that does not parse appends the parse error and changes nothing else. A task hydrated that way keeps its default fields.
- **A missing record still produces a task.** If a trigger fires and its record is gone, `client.get` answers `null`. `new Task({serializedTask: null})` then builds a default task. The scheduler gives that task a fresh id and queues it on `tasks` (`Scheduler.ExpiredTriggerWithoutRecordQueuesDefaultTask`).
- **Stored fields that hydration ignores.** The stored `key` is never read back, because `key` has no setter. `keyPrefix`, `maxErrorsLength`, `_explicitTtl` and `executionStart` are not stored. So a hydrated task takes the default prefix, and its ttl is computed again from its schedule.
- **Loading into a task appends errors.** Assigning `errors` appends to the list the task already has. So `task.deserialize(task.serialize())` doubles the list, with the second copy as printed (`Tasks.DeserializeSerialized`).

## Model

| member | source | states |
|---|---|---|
| `Errors.NewTaskRunError` | lib/error.js:5-18 | a new `TaskRunError` has no `wait`, and its `toJSON()` is exactly the `{code, message, ts}` given to the constructor |
| `Json.RoundTripsCanHold` | lib/parsers/json.js:3-15 | for every value there is a codec that prints it and reads it back, so the round-trip hypothesis of the lemmas can be met |
| `Errors.ToJSON` | lib/error.js:12-18 | the JSON of a `TaskRunError` carries its code, message and timestamp and is already in wire form |
| `Errors.ToJSONIgnoresWait` | lib/error.js:12-18 | two errors that differ only in `wait` have the same JSON, so a retryable error's wait is never stored |
| `Errors.OnWire` | lib/task.js:305-308 | an entry as `JSON.stringify` (lib/parsers/json.js:4) writes it during `serialize`: exactly the parse errors (`SyntaxError` objects) become `{}`, and every other entry is unchanged |
| `Errors.NewRetryableTaskError` | lib/error.js:26-32 | a `RetryableTaskError` always has code 3 (`CODE`); `wait` is 5000 when omitted and the caller's value otherwise; its JSON carries code 3 |
| `Errors.ExportedRetryableTaskError` | lib/error.js:34-35 | the exported `RetryableTaskError` builds a plain `TaskRunError`: the caller's second argument, meant as the wait, becomes the numeric code (no code when it is omitted), and there is no `wait` |
| `Errors.ExportedRetryableIsNotRetryable` | lib/error.js:26-35 | with a wait of 2000, the exported constructor gives code 2000 and no wait, while the class gives code 3 and wait 2000 |
| `Errors.ExportedRetryableNeverRetryable` | lib/error.js:26-35 | for every message, second argument and clock reading: the export never sets a `wait` while the class always does, and the export's code is the retryable code 3 exactly when the caller passed 3 |
| `Backoff.MergeOverridesFieldByField` | lib/backoff.js:5-10 | with no overrides the defaults are used unchanged; overriding every field ignores the defaults; a field the caller passes has that value, whatever the defaults |
| `Backoff.Delay` | lib/backoff.js:21-50 | without jitter: the result is the clamped delay rounded down, so it does not depend on the draw; it is at most `maxDelay` when `maxDelay` is set and `minDelay - 10 <= maxDelay`; it is at least `floor(minDelay - 10)` when `minDelay` is set; with jitter on a non-negative clamped delay: it adds between `round(delay/10)` and `round(delay/10 * (1 + jitter))` |
| `Backoff.Compute` | lib/backoff.js:21-22 | with no per-call options the module options decide the delay; a per-call `jitter: 0` makes the result the clamped delay rounded down, whatever the module options say |
| `Backoff.InflationBounds` | lib/backoff.js:44-47 | the jitter term is at least a rounded tenth of the delay and at most that tenth times `1 + jitter`, for every draw in `[0, 1)` |
| `Backoff.DeterministicWithoutJitter` | lib/backoff.js:44-49 | with jitter falsy, two draws give the same delay |
| `Backoff.PowMonotone` | lib/backoff.js:28-30 | for a factor of at least 1, the growth term never decreases as the exponent grows |
| `Backoff.PowBernoulli` | lib/backoff.js:28-30 | for a factor `f >= 1`, the growth term `f^n` is at least `1 + n(f - 1)` |
| `Backoff.MonotoneInStep` | lib/backoff.js:21-50 | without jitter, with a factor that is 0 or at least 1, and a non-negative base: a later step never gives a shorter delay |
| `Backoff.SaturatesAtMaxDelay` | lib/backoff.js:32-34 | without jitter, once the grown delay reaches a whole `maxDelay` that is at least `minDelay - 10`, the result is exactly `maxDelay` |
| `Backoff.StaysAtMaxDelay` | lib/backoff.js:28-42 | without jitter and with growth, every step after the first one that reaches `maxDelay` also gives exactly `maxDelay` |
| `Backoff.FirstStepIsMinDelay` | lib/backoff.js:24-42 | without jitter or an explicit `delay`, and with `maxDelay` unset or not below `minDelay`, step 1 gives exactly a whole `minDelay`, whatever the factor |
| `Backoff.JitterExceedsMaxDelay` | lib/backoff.js:32-47 | with jitter on, a delay clamped at a whole `maxDelay` of at least 5 ends strictly above `maxDelay` |
| `Backoff.PlateauExample` | test/backoff-test.js:33-44 | minDelay 900, maxDelay 1000, no jitter: steps 2, 7 and 30 all give 1000 |
| `Backoff.BoundsExample` | test/backoff-test.js:58-67 | minDelay 9, maxDelay 1000, no jitter: step 1 gives 9 and step 100000 gives 1000 |
| `Tasks.StateNamesDistinct` | lib/task.js:5-10 | the four `STATE` names are pairwise distinct |
| `Tasks.BoundToWire` | lib/task.js:287-290 | `toJSON` writes an unbounded budget as -1 and only then; a finite budget is written as itself |
| `Tasks.BoundFromWire` | lib/task.js:272-276 | `fromJSON` reads -1 as unbounded and only -1; every other number is read as a budget that a count reaches exactly when `count >= number` |
| `Tasks.Key` | lib/task.js:384-386 | `key` is `keyPrefix` followed by `:` and the id's text, so the prefix and the id can be read back from the key |
| `Tasks.TtlKey` | lib/task.js:364-366 | `ttlKey` is `key` followed by `:ttl`; removing the last four characters gives `key` back |
| `Tasks.KeyDeterminesId` | lib/task.js:384-386 | two tasks with the same prefix have the same key exactly when their ids print the same |
| `Tasks.Ttl` | lib/task.js:347-357 | an explicit ttl wins; otherwise a truthy fixed delay gives that delay; a truthy cron schedule gives the parser's offset; with no schedule the result is `expire` (corrected reading, see Findings) |
| `Tasks.TtlAsWritten` | lib/task.js:347-357 | the getter as written: with a truthy numeric schedule and no explicit ttl, the ttl is 0; in every other case it matches `Ttl` |
| `Tasks.SetTtl` | lib/task.js:340-344 | after the setter runs, the getter returns the value set for any schedule and any cron parser; only `expire` and the explicit flag change |
| `Tasks.UpdateState` | lib/task.js:174-226 | `Error`: the task is delayed exactly when `errorCount < maxTries`, with ttl equal to the backoff for `errorCount`; otherwise it fails. `Commit`: completed exactly when `runs >= maxRuns`, else delayed exactly when the ttl the chosen getter reads is positive, else enqueued. Only the status and the ttl change, and every stage but `Join` leaves one of the four states |
| `Tasks.StoredStateNameTellsOutcome` | lib/task.js:189-217 | the `STATE` name stored by a transition tells its outcome: after an error it is `failed` exactly when the try budget is used up; after a commit it is `completed` exactly when the run budget is |
| `Tasks.UnboundedTriesNeverFail` | lib/task.js:188-198 | a task with unbounded `maxTries` is always delayed on error, never failed |
| `Tasks.UnboundedRunsNeverComplete` | lib/task.js:207-216 | a task with unbounded `maxRuns` is never completed by a commit |
| `Tasks.GettersDisagreeOnlyOnFixedDelays` | lib/task.js:207-222 | a commit gives the same result under both getters unless the task has a truthy fixed-delay schedule and no explicit ttl; for such a task with runs left, the getter as written enqueues it, and the corrected one delays it when the delay is positive |
| `Tasks.Complete` | lib/task.js:228-250 | on success, `runs` goes up by exactly 1 and `errorCount` is reset to 0; on failure, `runs`, `errorCount` and the average are unchanged; a `firstRun` that is already set is never overwritten, and a task with neither a first run nor a start gets the clock reading as its first run; the execution time is the end reading minus the recorded start; no field outside the counters and the telemetry changes |
| `Tasks.SumAppend` | lib/task.js:246 | the sum of execution times grows by exactly the appended time |
| `Tasks.NextAverageIsMean` | lib/task.js:246 | the corrected average after a run equals the mean of all execution times so far |
| `Tasks.AverageAsWrittenIsNotMean` | lib/task.js:246 | three runs of 3 ms: the formula as written gives 2, the mean is 3, and the corrected formula gives 3 |
| `Tasks.Evict` | lib/task.js:259-261 | the kept list is a suffix of the input, so only the oldest entries are removed; a list within a non-zero cap, or any list under cap 0, is kept whole; a longer list is cut to exactly `cap` entries |
| `Tasks.EvictOldest` | lib/task.js:259-261 | the `while (...) errors.shift()` loop ends with exactly the list `Evict` describes |
| `Tasks.SerializeError` | lib/task.js:116-122 | a `TaskRunError` is stored as its own `toJSON()`; any other error is stored as `{code, message}`: a truthy code, number or string such as `ECONNREFUSED`, is kept, and a truthy message is kept; a falsy one is replaced by 599 or "Unknown Error" |
| `Tasks.Fail` | lib/task.js:252-264 | `errorCount` and `totalErrors` each go up by 1; the serialized error is the newest entry; with a non-zero `maxErrorsLength` the list grows by one while below the cap and ends at exactly the cap otherwise; with 0 it is the old list plus the new entry; the result is a suffix of the old list plus the new entry; nothing else changes |
| `Tasks.FailStoresRunErrorJSON` | lib/error.js:12-18 | a `TaskRunError` given to `fail` is stored as exactly the `{code, message, ts}` given to its constructor |
| `Tasks.FailKeepsErrorsBounded` | lib/task.js:257-261 | if the list is within a non-zero cap, it stays within it; below the cap the entry is appended; at the cap the oldest entry is dropped |
| `Tasks.ToJSON` | lib/task.js:287-297 | the projection carries the derived key and exactly the task's own error list, parse errors included; it writes -1 for a budget exactly when that budget is unbounded |
| `Tasks.Printed` | lib/task.js:305-308 | the record `JSON.stringify` prints: every error entry in its wire form; the printed record is plain data, equals the input exactly when the input already is, and differs from it only in the error list |
| `Tasks.WireErrorsKeepsPlainEntries` | lib/task.js:305-308 | printing leaves an error list unchanged exactly when the list holds no parse error; the printed list holds none, and printing it again changes nothing |
| `Tasks.ProjectionIgnoresMemoryOnlyFields` | lib/task.js:92-111 | fields outside `_fields` (explicit-ttl flag, `maxErrorsLength`, `executionStart`) never affect the projection |
| `Tasks.FromJSON` | lib/task.js:272-281 | loading a record appends its errors to the task's current list; -1 is read back as unbounded; the prefix, ttl flag, cap and execution start of the task are kept; the task then projects to the record itself except for its own key, the longer error list, and budgets normalised through unbounded |
| `Tasks.FromJSONRestoresProjection` | lib/task.js:272-290 | loading a task's projection into any task restores every allow-listed field, the unbounded sentinel included; the memory-only fields are those of the target; the errors are the target's followed by the original's |
| `Tasks.Deserialize` | lib/task.js:320-330 | text that does not parse leaves every field unchanged and appends the parser's error; parsed text is loaded with `fromJSON` |
| `Tasks.Serialize` | lib/task.js:305-308 | when the codec round-trips the printed projection, the text is never empty and parses back to exactly that printed record, which is the projection itself when the task holds no parse error |
| `Tasks.Overlay` | lib/task.js:143-154 | the starting record of `new Task(config)`: every key present in the config wins, every absent key takes its default, and `_explicitTtl` and the run telemetry start unset; an empty config gives the default task |
| `Tasks.NewTask` | lib/task.js:143-164 | an absent or empty `serializedTask` leaves the overlaid record as it is; a non-empty one is deserialized onto it, and when it parses the prefix and error cap of the config are kept |
| `Tasks.DeserializeSerialized` | test/task-test.js:113-123 | when the codec round-trips this task's printed projection, `task.deserialize(task.serialize())` gives the task back with its budgets, unbounded ones included; its error list is followed by its own printed form, which is an exact second copy when it holds no parse error |
| `Tasks.Hydrate` | lib/task.js:143-164 | with no stored text the result is the default task; with non-empty text that does not parse it is the default task holding exactly one parse error |
| `Tasks.HydrateSerialized` | lib/task.js:143-164 | when the codec round-trips this task's printed projection, a task with the default prefix hydrated from its own serialized text has the same id, queue and key, holds its errors as printed, prints the same record and serializes to the same text; it projects to the same record exactly when the original holds no parse error |
| `Tasks.CorruptRecordComesBackAsEmptyObject` | lib/task.js:320-330 | text that does not parse hydrates to a default task holding the parser's error; when that task is stored and read back through a codec that round-trips its printed record, the entry is `{}` |
| `Tasks.NumericScheduleDelayedOnlyWhenCorrected` | lib/task.js:350-354 | a task on a fixed 5000 ms schedule: the getter as written reads ttl 0 and a commit enqueues the task; the corrected getter reads 5000 and a commit delays it |
| `RedisBackend.AddTask` | lib/backends/redis.js:73-78 | one batch: the record key holds the serialized task, the id is appended at the tail of the task's queue, and no other key or list changes |
| `RedisBackend.AddTaskTwice` | lib/backends/redis.js:73-78 | adding the same task twice gives the same values as adding it once, and its id is queued twice |
| `RedisBackend.AddStoredTask` | lib/backends/redis.js:73-78 | adding a task whose serialized record is already stored at its key leaves the values unchanged and only appends its id to its queue |
| `RedisBackend.OnOneLine` | lib/backends/redis.js:52 | true exactly when the text has no line terminator, which is what `.` needs to match |
| `RedisBackend.TriggerKey` | lib/backends/redis.js:52-54 | a message matches exactly when it starts with `tasks:`, ends with `:ttl` and has at least one character between them, none a line terminator; the match is the message with the final `:ttl` removed |
| `RedisBackend.TtlKeyTriggersItsKey` | lib/backends/redis.js:52-54 | a task's `ttlKey` matches exactly when its key starts with `tasks:` and continues on one line; it then gives exactly that key |
| `RedisBackend.DefaultPrefixTriggers` | lib/task.js:384-386 | with the default `tasks` prefix and a non-empty single-line id, the trigger on `ttlKey` leads to exactly `key` |
| `RedisBackend.OtherPrefixesNeverTrigger` | lib/backends/redis.js:52-53 | a task whose prefix is not `tasks` and does not start with `tasks:` never triggers |
| `RedisBackend.OnExpiration` | lib/backends/redis.js:51-57 | a message that does not match emits nothing; a match emits one `task.created`, with the task hydrated from the value stored at the message minus `:ttl` |
| `Scheduler.AddTask` | lib/scheduler.js:34-42 | a truthy id is kept and a falsy one replaced by `uid`; nothing else about the wrapped task changes; the backend add runs once with that task, leaving its record at its key and its id at the tail of its queue |
| `Scheduler.Wrap` | lib/scheduler.js:35-37 | a `Task` instance is passed on as it is; a definition becomes a new task, the defaults overlaid with its keys, deserialized from its `serializedTask` when that is non-empty |
| `Scheduler.DefinitionGetsDefaults` | lib/scheduler.js:35-37 | a plain definition without queue, prefix or budgets becomes a task with queue and prefix `tasks`, `maxRuns` 1 and `maxTries` 4, and its id is queued on `tasks` |
| `Scheduler.HandleExpiration` | lib/scheduler.js:28-30 | a message that is not a task trigger leaves the store unchanged; a trigger passes the emitted task to `addTask` |
| `Scheduler.ExpiredTaskIsRequeued` | lib/backends/redis.js:51-57 | when the codec round-trips the stored task's printed record and the trigger of that task (default prefix) expires, its id is pushed again at the tail of its queue; the stored values and all other lists stay the same |
| `Scheduler.ExpiredTriggerWithoutRecordQueuesDefaultTask` | lib/backends/redis.js:54-56 | when a trigger expires and its record is gone, a default task gets the new id, is stored at `tasks:<uid>`, and that id is queued on `tasks` |

## Left out

- lib/workers/index.js: the worker loop is not modelled. It is an async self-recursive loop that ends with `process.exit`. It calls `waitForTask`, `commit` and `handleError`, and the Redis backend shown here has none of these methods.
- lib/createClient.js is not modelled, and neither is the Redis connection and pub/sub subscription (lib/backends/redis.js:27-49). Both are client-library plumbing. The model starts from a message already delivered on the expiration channel.
- The cron path of `computeNextExecution` is left out: it needs a cron parser, time zones and the wall clock. It is the `CronClock` parameter. `serializeOptions` is the identity in the model, because schedule options are opaque text and date objects are not modelled.
- `getUid` (lib/getuid.js and `Scheduler.getUid`) reads the clock and `Math.random`. Its answer is the `uid` parameter.
- `Backoff.execute` is left out. It only registers a `setTimeout`.
- `updateState` with a stage name other than `error`, `commit` or `join` is left out; the source throws a `TypeError` there. The `Stage` type rules it out.
- `new Task(config)` with a `ttl` key is left out: the config copy would call the setter. So are timing fields in a config, and config keys outside `Config`.
- The `console.log` in the `ttl` getter and the promise that `exec()` returns are not modelled.
- Backoff.Delay: numbers are exact reals, not IEEE doubles. `NaN`, `Infinity` and floating-point rounding are not modelled, and neither is an `undefined` option passed on purpose.
- Tasks.BoundFromWire: a stored budget that is negative but not -1 is read back as 0. Every count reaches 0 just as it reaches the negative number. Writing the task again stores 0 instead of the original value.
- Counters: `runs`, `errorCount`, `totalErrors`, `maxErrorsLength` and finite budgets are natural numbers. A negative `maxErrorsLength` would loop forever in the source's `while`; the model cannot represent it.
- Tasks.Complete: updates `executionAverage` with the corrected running mean, not the formula on lib/task.js:246 (see Findings).
- Errors.Code: a code is a number or a string. Other values `_errorSerializer` would keep, such as `true` or an object, are not represented; neither is a `NaN` code.
- RedisBackend.AddTask: requires an id. Its only caller, `Scheduler.addTask`, always assigns one first. With an undefined id, what gets pushed depends on the client library.
- Tasks.Deserialize: only records and unparsable text are represented. Parsed `null` makes `_toJSON` throw when it reads a field of it (lib/task.js:400-402), so `new Task` and the expiration handler throw and emit nothing. Any other parsed non-object (a number, string, boolean or array) reads every listed field as `undefined`; those are handed to `extend` (the gextend package, which is not part of this model), and the `errors` setter, given a non-array, replaces the list with that one value (lib/task.js:393-397). The codec answers only a record or a parse failure, so neither path is modelled.
- Tasks.SerializeError: an error other than a `TaskRunError` that has its own `toJSON` is stored as that method's result, which is not represented; neither is `fail(undefined)`, which throws reading `error.toJSON` (lib/task.js:117).
- Tasks.UpdateState: the `join` handler (lib/task.js:203-205) returns nothing, so the source's call answers `undefined` (lib/task.js:225); the model answers the task unchanged.
- The tests that check behaviour the code does not have are not modelled: `state.action` (test/task-test.js:125-143), and non-listed fields surviving `toJSON` (test/task-test.js:26-41).

## Findings

| source | as written | input that shows it | evidently intended | confidence | as-written member | corrected member |
|---|---|---|---|---|---|---|
| lib/task.js:350-354 | for a numeric schedule, `computeNextExecution` returns the number itself (lib/parsers/schedule.js:16); the getter reads `.ttl` of that number, which is `undefined`, so the ttl is 0 | a task with `schedule: 5000` and no explicit ttl: the ttl reads 0, so a commit enqueues the task at once | the fixed delay is the ttl (5000), so a commit delays the task, as the parser's comment says | medium; not executed | `Tasks.TtlAsWritten`, read by `Tasks.UpdateState` with getter `AsWritten` (shown by `Tasks.NumericScheduleDelayedOnlyWhenCorrected`) | `Tasks.Ttl`, read by `Tasks.UpdateState` with getter `Corrected` |
| lib/error.js:35 | the export named `RetryableTaskError` is bound to `TaskRunError` | `new RetryableTaskError('busy', 2000)` through the module's exports: code 2000, no `wait` | code 3 and `wait` 2000, as the class declares | high; not executed | `Errors.ExportedRetryableTaskError` (shown by `Errors.ExportedRetryableIsNotRetryable`) | `Errors.NewRetryableTaskError` |
| lib/task.js:246 | the new average is the previous average plus this run's time, divided by the run count | three successful runs of 3 ms each: the average ends at 2 | the running mean, here 3 | medium; not executed | `Tasks.AverageAsWritten` (shown by `Tasks.AverageAsWrittenIsNotMean`) | `Tasks.NextAverage` (proved by `Tasks.NextAverageIsMean`), used by `Tasks.Complete` |

=== FILE: backoff.dfy ===
/** The retry delay policy (lib/backoff.js): a base delay grown geometrically per
    step, clamped to `[minDelay - 10, maxDelay]`, then optionally inflated by a
    random jitter. Numbers are modelled as reals; the random draw is the parameter
    `r` in `[0, 1)`. */
module Backoff {
  import opened Wrappers

  /** Effective options after merging. A field holding 0 is falsy, which is also
      how an absent `delay` (no default) or `jitter: false` reads. */
  datatype Options = Options(delay: real, factor: real, minDelay: real, maxDelay: real, jitter: real)

  /** Per-call options; a `None` field is one the caller did not pass. */
  datatype Overrides = Overrides(
    delay: Option<real>, factor: Option<real>, minDelay: Option<real>,
    maxDelay: Option<real>, jitter: Option<real>)

  /** `Backoff.options`: factor 2.3, minDelay 500 ms, maxDelay one hour, jitter 0.3. */
  const DEFAULTS: Options := Options(0.0, 2.3, 500.0, 3600000.0, 0.3)

  const NO_OVERRIDES: Overrides := Overrides(None, None, None, None, None)

  /** `extend({}, this.options, options)`: each field passed by the caller wins. */
  function Merge(defaults: Options, o: Overrides): Options {
    Options(
      o.delay.GetOr(defaults.delay), o.factor.GetOr(defaults.factor),
      o.minDelay.GetOr(defaults.minDelay), o.maxDelay.GetOr(defaults.maxDelay),
      o.jitter.GetOr(defaults.jitter))
  }

  /** The overrides that set every field to the value it has in `o`. */
  function Everything(o: Options): Overrides {
    Overrides(Some(o.delay), Some(o.factor), Some(o.minDelay), Some(o.maxDelay), Some(o.jitter))
  }

  /** Passing nothing keeps the defaults; passing every field ignores them; and a
      field passed by the caller takes that value whatever the defaults are. */
  lemma MergeOverridesFieldByField(d1: Options, d2: Options, o: Overrides)
    ensures Merge(d1, NO_OVERRIDES) == d1
    ensures Merge(d1, Everything(d2)) == d2
    ensures o.factor.Some? ==> Merge(d1, o).factor == Merge(d2, o).factor
    ensures o.jitter.Some? ==> Merge(d1, o).jitter == Merge(d2, o).jitter
    ensures o.minDelay.Some? ==> Merge(d1, o).minDelay == Merge(d2, o).minDelay
    ensures o.maxDelay.Some? ==> Merge(d1, o).maxDelay == Merge(d2, o).maxDelay
    ensures o.delay.Some? ==> Merge(d1, o).delay == Merge(d2, o).delay
  {
  }

  /** `Math.pow(f, n)` for an integer exponent. */
  function Pow(f: real, n: int): real
    requires n >= 0 || f != 0.0
    decreases if n >= 0 then n else -n
  {
    if n == 0 then 1.0
    else if n > 0 then f * Pow(f, n - 1)
    else Pow(f, n + 1) / f
  }

  /** `Math.round`: the nearest integer, halves rounded towards +infinity. */
  function Round(x: real): int {
    (x + 0.5).Floor
  }

  function Min(a: real, b: real): real { if a <= b then a else b }

  function Max(a: real, b: real): real { if a >= b then a else b }

  /** The starting delay: `options.delay`, or `minDelay` when `delay` is falsy. */
  function Base(o: Options): real {
    if o.delay == 0.0 then o.minDelay else o.delay
  }

  /** The delay after geometric growth, before clamping. */
  function Grown(step: int, o: Options): real {
    if o.factor != 0.0 then Base(o) * Pow(o.factor, step - 1) else Base(o)
  }

  /** The grown delay capped at `maxDelay` and then floored at `minDelay - 10`
      (either bound is skipped when it is 0). */
  function Clamped(step: int, o: Options): real {
    var capped := if o.maxDelay != 0.0 then Min(Grown(step, o), o.maxDelay) else Grown(step, o);
    if o.minDelay != 0.0 then Max(capped, o.minDelay - 10.0) else capped
  }

  /** Adding a whole number commutes with `.Floor`. */
  lemma FloorShift(x: real, n: int)
    ensures (x + n as real).Floor == x.Floor + n
  {
  }

  lemma FloorMonotone(x: real, y: real)
    requires x <= y
    ensures x.Floor <= y.Floor
  {
  }

  /** Scaling by a non-negative factor keeps the order. */
  lemma ScaleMonotone(a: real, b: real, c: real)
    requires a >= 0.0 && b <= c
    ensures a * b <= a * c
  {
    assert a * c - a * b == a * (c - b);
  }

  lemma RoundMonotone(x: real, y: real)
    requires x <= y
    ensures Round(x) <= Round(y)
  {
    FloorMonotone(x + 0.5, y + 0.5);
  }

  /** The jitter term `Math.round((delay / 10) * (1 + r * jitter))`. */
  function Inflation(c: real, jitter: real, r: real): int {
    Round(c / 10.0 * (1.0 + r * jitter))
  }

  /** For a non-negative delay and positive jitter the inflation lies between a
      rounded tenth of the delay and that tenth scaled by `1 + jitter`. */
  lemma InflationBounds(c: real, jitter: real, r: real)
    requires c >= 0.0 && jitter > 0.0 && 0.0 <= r < 1.0
    ensures Round(c / 10.0) <= Inflation(c, jitter, r) <= Round(c / 10.0 * (1.0 + jitter))
  {
    var tenth := c / 10.0;
    var k := 1.0 + r * jitter;
    var top := 1.0 + jitter;
    ScaleMonotone(jitter, 0.0, r);
    ScaleMonotone(jitter, r, 1.0);
    ScaleMonotone(tenth, 1.0, k);
    RoundMonotone(tenth, tenth * k);
    ScaleMonotone(tenth, k, top);
    RoundMonotone(tenth * k, tenth * top);
  }

  /** `InflationBounds` wherever its conditions hold. */
  lemma InflationBoundsWhenPositive(c: real, jitter: real, r: real)
    requires 0.0 <= r < 1.0
    ensures jitter > 0.0 && c >= 0.0 ==>
              Round(c / 10.0) <= Inflation(c, jitter, r) <= Round(c / 10.0 * (1.0 + jitter))
  {
    if jitter > 0.0 && c >= 0.0 {
      InflationBounds(c, jitter, r);
    }
  }

  /** The body of `compute` on merged options with random draw `r`. Without jitter
      the result lies in `[minDelay - 10, maxDelay]` (when both bounds are set and
      ordered) and does not depend on `r`; with jitter it gains between a tenth of
      the clamped delay and that tenth inflated by `1 + jitter`, rounded. */
  function Delay(step: int, o: Options, r: real): (d: int)
    requires 0.0 <= r < 1.0
    ensures o.jitter == 0.0 && o.maxDelay != 0.0 && o.minDelay - 10.0 <= o.maxDelay ==> d as real <= o.maxDelay
    ensures o.jitter == 0.0 && o.minDelay != 0.0 ==> d >= (o.minDelay - 10.0).Floor
    ensures o.jitter == 0.0 ==> d == Clamped(step, o).Floor
    ensures o.jitter > 0.0 && Clamped(step, o) >= 0.0 ==>
              Clamped(step, o).Floor + Round(Clamped(step, o) / 10.0) <= d <=
              Clamped(step, o).Floor + Round(Clamped(step, o) / 10.0 * (1.0 + o.jitter))
  {
    var c := Clamped(step, o);
    if o.jitter != 0.0 then
      var extra := Inflation(c, o.jitter, r);
      FloorShift(c, extra);
      InflationBoundsWhenPositive(c, o.jitter, r);
      (c + extra as real).Floor
    else
      if o.minDelay != 0.0 then
        FloorMonotone(o.minDelay - 10.0, c);
        c.Floor
      else
        c.Floor
  }

  /** `Backoff.compute(step, options)` with `Backoff.options` equal to `defaults`:
      with nothing passed the module options decide, and a per-call `jitter: 0`
      makes the result the clamped delay rounded down, whatever the defaults. */
  function Compute(step: int, defaults: Options, overrides: Overrides, r: real): (d: int)
    requires 0.0 <= r < 1.0
    ensures overrides == NO_OVERRIDES ==> d == Delay(step, defaults, r)
    ensures overrides.jitter == Some(0.0) ==> d == Clamped(step, Merge(defaults, overrides)).Floor
  {
    Delay(step, Merge(defaults, overrides), r)
  }

  /** With jitter off the result is a function of the step and the options only. */
  lemma DeterministicWithoutJitter(step: int, o: Options, r1: real, r2: real)
    requires 0.0 <= r1 < 1.0 && 0.0 <= r2 < 1.0
    requires o.jitter == 0.0
    ensures Delay(step, o, r1) == Delay(step, o, r2)
  {
  }

  lemma {:induction false} PowAtLeastOne(f: real, n: nat)
    requires f >= 1.0
    ensures Pow(f, n) >= 1.0
  {
    if n > 0 {
      PowAtLeastOne(f, n - 1);
      assert f * Pow(f, n - 1) >= Pow(f, n - 1);
    }
  }

  lemma {:induction false} PowMonotone(f: real, m: nat, n: nat)
    requires f >= 1.0
    requires m <= n
    ensures Pow(f, m) <= Pow(f, n)
  {
    if m < n {
      PowMonotone(f, m, n - 1);
      PowAtLeastOne(f, n - 1);
      assert f * Pow(f, n - 1) >= Pow(f, n - 1);
    }
  }

  /** `f * p` split as `p` plus the growth `(f - 1) * p`. */
  lemma MulSplit(f: real, p: real)
    ensures f * p == p + (f - 1.0) * p
  {
  }

  /** One more copy of `g`. */
  lemma MulSucc(k: real, g: real)
    ensures k * g + g == (k + 1.0) * g
  {
  }

  /** Bernoulli's inequality: `f^n >= 1 + n(f - 1)` for `f >= 1`. */
  lemma {:induction false} PowBernoulli(f: real, n: nat)
    requires f >= 1.0
    ensures Pow(f, n) >= 1.0 + n as real * (f - 1.0)
  {
    if n > 0 {
      PowBernoulli(f, n - 1);
      PowAtLeastOne(f, n - 1);
      var p, g, k := Pow(f, n - 1), f - 1.0, (n - 1) as real;
      MulSplit(f, p);
      ScaleMonotone(g, 1.0, p);
      MulSucc(k, g);
    }
  }

  lemma GrownMonotone(o: Options, s1: int, s2: int)
    requires o.factor == 0.0 || o.factor >= 1.0
    requires Base(o) >= 0.0
    requires 1 <= s1 <= s2
    ensures Grown(s1, o) <= Grown(s2, o)
  {
    if o.factor != 0.0 {
      PowMonotone(o.factor, s1 - 1, s2 - 1);
      ScaleMonotone(Base(o), Pow(o.factor, s1 - 1), Pow(o.factor, s2 - 1));
    }
  }

  /** Without jitter and with a growth factor of at least 1 (or none), the delay
      never decreases from one step to a later one. */
  lemma MonotoneInStep(o: Options, s1: int, s2: int, r: real)
    requires 0.0 <= r < 1.0
    requires o.jitter == 0.0
    requires o.factor == 0.0 || o.factor >= 1.0
    requires Base(o) >= 0.0
    requires 1 <= s1 <= s2
    ensures Delay(s1, o, r) <= Delay(s2, o, r)
  {
    GrownMonotone(o, s1, s2);
    FloorMonotone(Clamped(s1, o), Clamped(s2, o));
  }

  /** Without jitter, once the grown delay reaches a whole `maxDelay` (at or above
      `minDelay - 10`) the result is exactly `maxDelay`. */
  lemma SaturatesAtMaxDelay(step: int, o: Options, r: real)
    requires 0.0 <= r < 1.0
    requires o.jitter == 0.0
    requires o.maxDelay != 0.0 && o.maxDelay.Floor as real == o.maxDelay
    requires o.minDelay - 10.0 <= o.maxDelay
    requires Grown(step, o) >= o.maxDelay
    ensures Delay(step, o, r) as real == o.maxDelay
  {
  }

  /** Without jitter and with growth, every step after one that reached `maxDelay`
      also answers exactly `maxDelay`. */
  lemma StaysAtMaxDelay(step: int, later: int, o: Options, r: real)
    requires 0.0 <= r < 1.0
    requires o.jitter == 0.0
    requires o.factor == 0.0 || o.factor >= 1.0
    requires Base(o) >= 0.0
    requires o.maxDelay != 0.0 && o.maxDelay.Floor as real == o.maxDelay
    requires o.minDelay - 10.0 <= o.maxDelay
    requires 1 <= step <= later
    requires Grown(step, o) >= o.maxDelay
    ensures Delay(later, o, r) as real == o.maxDelay
  {
    GrownMonotone(o, step, later);
    SaturatesAtMaxDelay(later, o, r);
  }

  /** Without jitter and without an explicit `delay`, step 1 answers exactly a whole
      `minDelay`, whatever the factor, provided `maxDelay` does not cut below it. */
  lemma FirstStepIsMinDelay(o: Options, r: real)
    requires 0.0 <= r < 1.0
    requires o.jitter == 0.0 && o.delay == 0.0
    requires o.minDelay != 0.0 && o.minDelay.Floor as real == o.minDelay
    requires o.maxDelay == 0.0 || o.maxDelay >= o.minDelay
    ensures Delay(1, o, r) as real == o.minDelay
  {
  }

  /** With jitter on, a delay clamped at a whole `maxDelay` of at least 5 ms is
      pushed strictly above `maxDelay`, whatever the draw. */
  lemma JitterExceedsMaxDelay(step: int, o: Options, r: real)
    requires 0.0 <= r < 1.0
    requires o.jitter > 0.0
    requires o.maxDelay >= 5.0 && o.maxDelay.Floor as real == o.maxDelay
    requires o.minDelay - 10.0 <= o.maxDelay
    requires Grown(step, o) >= o.maxDelay
    ensures Delay(step, o, r) as real > o.maxDelay
  {
    assert Clamped(step, o) == o.maxDelay;
    RoundMonotone(0.5, o.maxDelay / 10.0);
  }

  /** The plateau exercised by the backoff tests: jitter off, minDelay 900,
      maxDelay 1000; steps 2, 7 and 30 all answer 1000. */
  lemma PlateauExample(r: real)
    requires 0.0 <= r < 1.0
    ensures var o := Overrides(None, None, Some(900.0), Some(1000.0), Some(0.0));
            Compute(2, DEFAULTS, o, r) == 1000 && Compute(7, DEFAULTS, o, r) == 1000 &&
            Compute(30, DEFAULTS, o, r) == 1000
  {
    var m := Merge(DEFAULTS, Overrides(None, None, Some(900.0), Some(1000.0), Some(0.0)));
    assert Pow(2.3, 1) == 2.3 by { assert Pow(2.3, 0) == 1.0; }
    assert Grown(2, m) >= 1000.0;
    StaysAtMaxDelay(2, 7, m, r);
    StaysAtMaxDelay(2, 30, m, r);
  }

  /** The bounds exercised by the backoff tests: jitter off, minDelay 9,
      maxDelay 1000; step 1 answers 9 and step 100000 answers 1000. */
  lemma BoundsExample(r: real)
    requires 0.0 <= r < 1.0
    ensures var o := Overrides(None, None, Some(9.0), Some(1000.0), Some(0.0));
            Compute(1, DEFAULTS, o, r) == 9 && Compute(100000, DEFAULTS, o, r) == 1000
  {
    var m := Merge(DEFAULTS, Overrides(None, None, Some(9.0), Some(1000.0), Some(0.0)));
    FirstStepIsMinDelay(m, r);
    PowBernoulli(2.3, 99999);
    assert Grown(100000, m) >= 1000.0;
    SaturatesAtMaxDelay(100000, m, r);
  }
}

=== FILE: errors.dfy ===
/** Errors a task handler can raise (lib/error.js) and the records a task keeps
    about them. */
module Errors {
  import opened Wrappers

  /** An error's `code`: a number (`3`, `599`) or a string such as Node's
      `'ECONNREFUSED'`. */
  datatype Code = Num(n: int) | Str(s: string)

  /** JavaScript truthiness of a code: a non-zero number or a non-empty string. */
  predicate Truthy(c: Code) {
    match c
    case Num(n) => n != 0
    case Str(s) => s != ""
  }

  /** `RetryableTaskError.CODE`. */
  const RETRYABLE_CODE: Code := Num(3)

  /** Default `wait` of a `RetryableTaskError`, in milliseconds. */
  const DEFAULT_WAIT: int := 5000

  /** A `TaskRunError` instance; `wait` is only present on a `RetryableTaskError`.
      `code` is `None` when the constructor was given no code. */
  datatype TaskRunError = TaskRunError(message: string, code: Option<Code>, ts: int, wait: Option<int>)

  /** One entry of a task's `errors` list. */
  datatype ErrorRecord =
    | Stamped(code: Option<Code>, message: string, ts: int)  // `TaskRunError.toJSON()`
    | Normalized(plainCode: Code, plainMessage: string)       // the fallback `{code, message}`
    | ParseError(reason: string)                              // the `SyntaxError` a failed `deserialize` pushes
    | EmptyObject                                             // `{}`: how `JSON.stringify` writes that `SyntaxError`

  /** An entry as `JSON.stringify` writes it: an `Error` object has no enumerable
      own properties, so a parse error is written as `{}`; every other entry is a
      plain object and is written as it is. */
  function OnWire(e: ErrorRecord): (w: ErrorRecord)
    ensures !w.ParseError?
    ensures e.ParseError? <==> w.EmptyObject? && !e.EmptyObject?
    ensures !e.ParseError? ==> w == e
  {
    if e.ParseError? then EmptyObject else e
  }

  /** A value a task handler throws: either a `TaskRunError` (it has `toJSON`) or any
      other error object, seen through its possibly missing `code` and `message`. */
  datatype Thrown = Raised(error: TaskRunError) | Plain(code: Option<Code>, message: Option<string>)

  /** `TaskRunError.toJSON()`: the code, message and timestamp, never the `wait`. */
  function ToJSON(e: TaskRunError): (rec: ErrorRecord)
    ensures rec.Stamped? && rec.code == e.code && rec.message == e.message && rec.ts == e.ts
    ensures OnWire(rec) == rec
  {
    Stamped(e.code, e.message, e.ts)
  }

  /** Two errors that differ only in their `wait` have the same JSON. */
  lemma ToJSONIgnoresWait(e: TaskRunError, wait: Option<int>)
    ensures ToJSON(e.(wait := wait)) == ToJSON(e)
  {
  }

  /** `new TaskRunError(message, code)` at clock reading `now`. */
  function NewTaskRunError(message: string, code: Option<Code>, now: int): (e: TaskRunError)
    ensures e.wait.None?
    ensures ToJSON(e) == Stamped(code, message, now)
  {
    TaskRunError(message, code, now, None)
  }

  /** `new RetryableTaskError(message, wait)` at clock reading `now`, as the class
      declares it: code 3, `wait` defaulting to 5000 when omitted. */
  function NewRetryableTaskError(message: string, wait: Option<int>, now: int): (e: TaskRunError)
    ensures e.code == Some(RETRYABLE_CODE)
    ensures wait.None? ==> e.wait == Some(DEFAULT_WAIT)
    ensures wait.Some? ==> e.wait == wait
    ensures ToJSON(e) == Stamped(Some(RETRYABLE_CODE), message, now)
  {
    TaskRunError(message, Some(RETRYABLE_CODE), now, Some(wait.GetOr(DEFAULT_WAIT)))
  }

  /** The module's exported `RetryableTaskError`, which is bound to `TaskRunError`:
      the caller's second argument, meant as the wait, becomes the code and no
      `wait` is set. */
  function ExportedRetryableTaskError(message: string, second: Option<int>, now: int): (e: TaskRunError)
    ensures second.Some? ==> e.code == Some(Num(second.value))
    ensures second.None? ==> e.code.None?
    ensures e.wait.None?
  {
    NewTaskRunError(message, if second.Some? then Some(Num(second.value)) else None, now)
  }

  /** For every message, second argument and clock reading, the export never sets a
      `wait`, where the class always does, and it carries the retryable code exactly
      when the caller passed 3 as the wait. */
  lemma ExportedRetryableNeverRetryable(message: string, second: Option<int>, now: int)
    ensures ExportedRetryableTaskError(message, second, now).wait.None?
    ensures NewRetryableTaskError(message, second, now).wait.Some?
    ensures ExportedRetryableTaskError(message, second, now).code == Some(RETRYABLE_CODE) <==> second == Some(3)
  {
  }

  /** Building a retryable error through the export with a wait of 2000 ms gives an
      error whose code is 2000 and which has no wait, where the class gives code 3
      and wait 2000. */
  lemma ExportedRetryableIsNotRetryable(now: int)
    ensures ExportedRetryableTaskError("busy", Some(2000), now).code == Some(Num(2000))
    ensures ExportedRetryableTaskError("busy", Some(2000), now).code != Some(RETRYABLE_CODE)
    ensures ExportedRetryableTaskError("busy", Some(2000), now).wait.None?
    ensures NewRetryableTaskError("busy", Some(2000), now).code == Some(RETRYABLE_CODE)
    ensures NewRetryableTaskError("busy", Some(2000), now).wait == Some(2000)
  {
  }
}

=== FILE: json.dfy ===
/** The JSON parser used by tasks (lib/parsers/json.js), as an abstract codec.
    `encode` plays `JSON.stringify`; `decode` plays the try/catch wrapper around
    `JSON.parse`, answering the parser's error message on malformed text. */
module Json {
  import opened Wrappers

  datatype Codec<!T> = Codec(encode: T -> string, decode: string -> Result<T, string>)

  /** What a round-trip lemma assumes of `JSON.stringify`/`JSON.parse` on the one
      value `v` it prints: parsing the printed text gives `v` back, and the text is
      not empty (an object prints at least as `{}`). */
  ghost predicate RoundTrips<T>(c: Codec<T>, v: T) {
    c.decode(c.encode(v)) == Success(v) && c.encode(v) != ""
  }

  /** The hypothesis can always be met: for every value some codec prints and
      reads it back. */
  lemma RoundTripsCanHold<T>(v: T)
    ensures exists c: Codec<T> :: RoundTrips(c, v)
  {
    var c: Codec<T> := Codec(x => "{}", s => Success(v));
    assert RoundTrips(c, v);
  }
}

=== FILE: redis.dfy ===
/** The slice of the Redis backend (lib/backends/redis.js) that the scheduler uses:
    `addTask` as one atomic batch on the store, and the expiration trigger that
    turns an expired `<key>:ttl` back into a `task.created` event. The store is a
    map of string values and a map of lists. */
module RedisBackend {
  import opened Wrappers
  import Json
  import Tasks

  datatype Store = Store(values: map<string, string>, lists: map<string, seq<string>>)

  /** `GET key`: the value, or `None` (Redis `nil`) when the key is absent. */
  function Get(s: Store, key: string): Option<string> {
    if key in s.values then Some(s.values[key]) else None
  }

  /** The list stored under `name`; an absent list reads as empty. */
  function List(s: Store, name: string): seq<string> {
    if name in s.lists then s.lists[name] else []
  }

  /** `addTask(task)`: one MULTI/EXEC batch that SETs the serialized record at the
      task's key and RPUSHes its id onto the tail of its queue. Nothing else in the
      store changes, and nothing checks for an earlier copy of the task. The id is
      always assigned by the scheduler before this is called. */
  function AddTask(s: Store, t: Tasks.Task, codec: Json.Codec<Tasks.Record>): (s': Store)
    requires t.id.Some?
    ensures Get(s', Tasks.Key(t)) == Some(Tasks.Serialize(t, codec))
    ensures forall k {:trigger Get(s', k)} :: k != Tasks.Key(t) ==> Get(s', k) == Get(s, k)
    ensures List(s', t.queue) == List(s, t.queue) + [t.id.value]
    ensures forall q {:trigger List(s', q)} :: q != t.queue ==> List(s', q) == List(s, q)
  {
    Store(
      s.values[Tasks.Key(t) := Tasks.Serialize(t, codec)],
      s.lists[t.queue := List(s, t.queue) + [t.id.value]])
  }

  /** Adding the same task twice stores one record but queues its id twice. */
  lemma AddTaskTwice(s: Store, t: Tasks.Task, codec: Json.Codec<Tasks.Record>)
    requires t.id.Some?
    ensures AddTask(AddTask(s, t, codec), t, codec).values == AddTask(s, t, codec).values
    ensures List(AddTask(AddTask(s, t, codec), t, codec), t.queue) == List(s, t.queue) + [t.id.value, t.id.value]
  {
    var once := AddTask(s, t, codec);
    assert List(once, t.queue) == List(s, t.queue) + [t.id.value];
  }

  /** Adding a task whose current record is already stored under its key rewrites
      that value with itself, so only its queue grows. */
  lemma AddStoredTask(s: Store, t: Tasks.Task, codec: Json.Codec<Tasks.Record>)
    requires t.id.Some?
    requires Get(s, Tasks.Key(t)) == Some(Tasks.Serialize(t, codec))
    ensures AddTask(s, t, codec).values == s.values
    ensures List(AddTask(s, t, codec), t.queue) == List(s, t.queue) + [t.id.value]
    ensures forall q :: q != t.queue ==> List(AddTask(s, t, codec), q) == List(s, q)
  {
  }

  const TRIGGER_PREFIX: string := "tasks:"
  const TTL_SUFFIX: string := ":ttl"

  /** The characters a regular expression `.` does not match. */
  predicate IsLineTerminator(c: char) {
    c == '\n' || c == '\r' || c == '\U{2028}' || c == '\U{2029}'
  }

  /** The text has no line terminator, so `.+` can run over all of it. */
  function OnOneLine(s: string): (b: bool)
    ensures b <==> forall i :: 0 <= i < |s| ==> !IsLineTerminator(s[i])
  {
    if |s| == 0 then true
    else if IsLineTerminator(s[0]) then false
    else
      var rest := OnOneLine(s[1..]);
      assert forall i :: 1 <= i < |s| ==> s[i] == s[1..][i - 1];
      rest
  }

  /** The match of `/^(tasks:.+):ttl$/` against an expired key's name: the name
      with its final `:ttl` removed, when it starts with `tasks:`, ends with `:ttl`
      and has at least one character, none a line terminator, between the two. */
  function TriggerKey(message: string): (key: Option<string>)
    ensures key.Some? <==>
              |message| > |TRIGGER_PREFIX| + |TTL_SUFFIX| &&
              message[..|TRIGGER_PREFIX|] == TRIGGER_PREFIX &&
              message[|message| - |TTL_SUFFIX|..] == TTL_SUFFIX &&
              forall i :: |TRIGGER_PREFIX| <= i < |message| - |TTL_SUFFIX| ==> !IsLineTerminator(message[i])
    ensures key.Some? ==> key.value + TTL_SUFFIX == message
  {
    if |message| > |TRIGGER_PREFIX| + |TTL_SUFFIX| &&
       message[..|TRIGGER_PREFIX|] == TRIGGER_PREFIX &&
       message[|message| - |TTL_SUFFIX|..] == TTL_SUFFIX
    then
      var middle := message[|TRIGGER_PREFIX|..|message| - |TTL_SUFFIX|];
      assert forall i :: |TRIGGER_PREFIX| <= i < |message| - |TTL_SUFFIX| ==>
               message[i] == middle[i - |TRIGGER_PREFIX|];
      if OnOneLine(middle) then
        assert message[..|message| - |TTL_SUFFIX|] + TTL_SUFFIX == message;
        Some(message[..|message| - |TTL_SUFFIX|])
      else None
    else None
  }

  /** A task's trigger key leads back to exactly its record key when that key
      starts with `tasks:` and continues on one line; otherwise it is ignored. */
  lemma TtlKeyTriggersItsKey(t: Tasks.Task)
    ensures TriggerKey(Tasks.TtlKey(t)).Some? <==>
              |Tasks.Key(t)| > |TRIGGER_PREFIX| &&
              Tasks.Key(t)[..|TRIGGER_PREFIX|] == TRIGGER_PREFIX &&
              OnOneLine(Tasks.Key(t)[|TRIGGER_PREFIX|..])
    ensures TriggerKey(Tasks.TtlKey(t)).Some? ==> TriggerKey(Tasks.TtlKey(t)).value == Tasks.Key(t)
  {
    var k, m := Tasks.Key(t), Tasks.TtlKey(t);
    assert m == k + TTL_SUFFIX;
    if |k| > |TRIGGER_PREFIX| {
      assert m[..|TRIGGER_PREFIX|] == k[..|TRIGGER_PREFIX|];
      assert forall i :: |TRIGGER_PREFIX| <= i < |m| - |TTL_SUFFIX| ==>
               m[i] == k[|TRIGGER_PREFIX|..][i - |TRIGGER_PREFIX|];
    }
    if TriggerKey(m).Some? {
      assert TriggerKey(m).value + TTL_SUFFIX == k + TTL_SUFFIX;
      assert TriggerKey(m).value == (k + TTL_SUFFIX)[..|k|];
    }
  }

  /** With the default `tasks` prefix, a task whose id is a non-empty single line
      is found again by its trigger. */
  lemma DefaultPrefixTriggers(t: Tasks.Task)
    requires t.keyPrefix == Tasks.DEFAULT_KEY_PREFIX
    requires t.id.Some? && t.id.value != "" && OnOneLine(t.id.value)
    ensures TriggerKey(Tasks.TtlKey(t)) == Some(Tasks.Key(t))
  {
    var k := Tasks.Key(t);
    assert k == "tasks:" + t.id.value;
    assert k[..6] == TRIGGER_PREFIX;
    assert k[6..] == t.id.value;
    TtlKeyTriggersItsKey(t);
  }

  /** A task whose prefix is neither `tasks` nor starts with `tasks:` never
      triggers, whatever its id. */
  lemma OtherPrefixesNeverTrigger(t: Tasks.Task)
    requires t.keyPrefix != Tasks.DEFAULT_KEY_PREFIX
    requires !(|t.keyPrefix| >= |TRIGGER_PREFIX| && t.keyPrefix[..|TRIGGER_PREFIX|] == TRIGGER_PREFIX)
    ensures TriggerKey(Tasks.TtlKey(t)).None?
  {
    TtlKeyTriggersItsKey(t);
    var k, p := Tasks.Key(t), t.keyPrefix;
    if |k| > |TRIGGER_PREFIX| && k[..|TRIGGER_PREFIX|] == TRIGGER_PREFIX {
      if |p| < 5 {
        assert k[|p|] == ':';
        assert TRIGGER_PREFIX[|p|] != ':';
      } else if |p| == 5 {
        assert p == k[..5] == TRIGGER_PREFIX[..5];
      }
    }
  }

  /** `_onTaskExpirationTrigger(message)`: a message that does not match is
      ignored; a matching one reads the record at the message minus its `:ttl`,
      hydrates a task from it and emits `task.created` with that task once. */
  function OnExpiration(s: Store, message: string, codec: Json.Codec<Tasks.Record>): (created: Option<Tasks.Task>)
    ensures created.None? <==> TriggerKey(message).None?
    ensures created.Some? ==>
              created.value == Tasks.Hydrate(Get(s, message[..|message| - |TTL_SUFFIX|]), codec)
  {
    match TriggerKey(message)
    case None => None
    case Some(key) => Some(Tasks.Hydrate(Get(s, key), codec))
  }
}

=== FILE: scheduler.dfy ===
/** The scheduler (lib/scheduler.js): `addTask` wraps a definition in a task,
    gives it an id when it has none and hands it to the backend; every
    `task.created` event of the backend is fed back into `addTask`. The id
    generator is an oracle: its next answer is the parameter `uid`. */
module Scheduler {
  import opened Wrappers
  import Json
  import Tasks
  import RedisBackend

  /** What `addTask` accepts: a `Task` instance, or a plain definition object. */
  datatype Submission = Instance(task: Tasks.Task) | Definition(config: Tasks.Config)

  /** `if (!(task instanceof Task)) task = new Task(task)`: an instance is passed on
      as it is; a definition becomes a new task built from it, which is the
      defaults overlaid with its keys when it carries no serialized task. */
  function Wrap(sub: Submission, codec: Json.Codec<Tasks.Record>): (t: Tasks.Task)
    ensures sub.Instance? ==> t == sub.task
    ensures sub.Definition? && sub.config.serializedTask.None? ==> t == Tasks.Overlay(sub.config)
    ensures sub.Definition? && sub.config.serializedTask.Some? && sub.config.serializedTask.value != "" ==>
              t == Tasks.Deserialize(Tasks.Overlay(sub.config), sub.config.serializedTask.value, codec)
  {
    match sub
    case Instance(t) => t
    case Definition(c) => Tasks.NewTask(c, codec)
  }

  /** JavaScript truthiness of `task.id`. */
  predicate HasId(t: Tasks.Task) {
    t.id.Some? && t.id.value != ""
  }

  /** `addTask(task)`: a truthy id is kept and a falsy one replaced by `uid`;
      nothing else about the wrapped task changes; the backend's `addTask` runs
      once with the result, which stores the record at the task's key and queues
      the id at the tail of the task's queue. */
  function AddTask(s: RedisBackend.Store, sub: Submission, uid: string, codec: Json.Codec<Tasks.Record>)
    : (out: (RedisBackend.Store, Tasks.Task))
    ensures HasId(Wrap(sub, codec)) ==> out.1 == Wrap(sub, codec)
    ensures !HasId(Wrap(sub, codec)) ==> out.1 == Wrap(sub, codec).(id := Some(uid))
    ensures out.1.id.Some?
    ensures out.0 == RedisBackend.AddTask(s, out.1, codec)
    ensures RedisBackend.Get(out.0, Tasks.Key(out.1)) == Some(Tasks.Serialize(out.1, codec))
    ensures RedisBackend.List(out.0, out.1.queue) == RedisBackend.List(s, out.1.queue) + [out.1.id.value]
  {
    var t := Wrap(sub, codec);
    var named := if HasId(t) then t else t.(id := Some(uid));
    (RedisBackend.AddTask(s, named, codec), named)
  }

  /** A plain definition that leaves them out gets the task defaults: queue and
      key prefix `tasks`, one run, four tries; its id goes onto the `tasks` queue. */
  lemma DefinitionGetsDefaults(s: RedisBackend.Store, c: Tasks.Config, uid: string, codec: Json.Codec<Tasks.Record>)
    requires c.serializedTask.None?
    requires c.queue.None? && c.keyPrefix.None? && c.maxRuns.None? && c.maxTries.None?
    ensures var (s', t) := AddTask(s, Definition(c), uid, codec);
            t.queue == "tasks" && t.keyPrefix == "tasks" &&
            t.maxRuns == Tasks.Finite(1) && t.maxTries == Tasks.Finite(4) &&
            RedisBackend.List(s', "tasks") == RedisBackend.List(s, "tasks") + [t.id.value]
  {
  }

  /** The `task.created` listener: each emitted task goes through `addTask`. */
  function OnTaskCreated(s: RedisBackend.Store, created: Option<Tasks.Task>, uid: string, codec: Json.Codec<Tasks.Record>)
    : RedisBackend.Store
  {
    match created
    case None => s
    case Some(t) => AddTask(s, Instance(t), uid, codec).0
  }

  /** An expiration message delivered to a scheduler's backend: a message that is
      not a task trigger leaves the store alone; a trigger re-submits the task
      read from the store. */
  function HandleExpiration(s: RedisBackend.Store, message: string, uid: string, codec: Json.Codec<Tasks.Record>)
    : (s': RedisBackend.Store)
    ensures RedisBackend.TriggerKey(message).None? ==> s' == s
    ensures RedisBackend.TriggerKey(message).Some? ==>
              s' == AddTask(s, Instance(RedisBackend.OnExpiration(s, message, codec).value), uid, codec).0
  {
    OnTaskCreated(s, RedisBackend.OnExpiration(s, message, codec), uid, codec)
  }

  /** When the trigger of a stored task with the default prefix expires, its id is
      pushed again onto the tail of its queue, no other list changes, and the
      stored record is rewritten with the same text. */
  lemma ExpiredTaskIsRequeued(s: RedisBackend.Store, t: Tasks.Task, uid: string, codec: Json.Codec<Tasks.Record>)
    requires Json.RoundTrips(codec, Tasks.Printed(Tasks.ToJSON(t)))
    requires t.keyPrefix == Tasks.DEFAULT_KEY_PREFIX
    requires t.id.Some? && t.id.value != "" && RedisBackend.OnOneLine(t.id.value)
    requires RedisBackend.Get(s, Tasks.Key(t)) == Some(Tasks.Serialize(t, codec))
    ensures var s' := HandleExpiration(s, Tasks.TtlKey(t), uid, codec);
            s'.values == s.values &&
            RedisBackend.List(s', t.queue) == RedisBackend.List(s, t.queue) + [t.id.value] &&
            forall q :: q != t.queue ==> RedisBackend.List(s', q) == RedisBackend.List(s, q)
  {
    RedisBackend.DefaultPrefixTriggers(t);
    var message := Tasks.TtlKey(t);
    assert message[..|message| - 4] == Tasks.Key(t);
    var h := Tasks.Hydrate(Some(Tasks.Serialize(t, codec)), codec);
    Tasks.HydrateSerialized(t, codec);
    assert RedisBackend.OnExpiration(s, message, codec) == Some(h);
    assert HasId(h);
    assert AddTask(s, Instance(h), uid, codec).1 == h;
    assert HandleExpiration(s, message, uid, codec) == RedisBackend.AddTask(s, h, codec);
    RedisBackend.AddStoredTask(s, h, codec);
  }

  /** When a trigger expires whose record is gone, the store answers nothing, a
      default task is hydrated instead, and it is submitted under the fresh id:
      its record appears under `tasks:<uid>` and the id is queued on `tasks`. */
  lemma ExpiredTriggerWithoutRecordQueuesDefaultTask(
    s: RedisBackend.Store, message: string, uid: string, codec: Json.Codec<Tasks.Record>)
    requires RedisBackend.TriggerKey(message).Some?
    requires RedisBackend.Get(s, RedisBackend.TriggerKey(message).value) == None
    ensures var s' := HandleExpiration(s, message, uid, codec);
            var newTask := Tasks.DEFAULT_TASK.(id := Some(uid));
            RedisBackend.Get(s', "tasks:" + uid) == Some(Tasks.Serialize(newTask, codec)) &&
            RedisBackend.List(s', "tasks") == RedisBackend.List(s, "tasks") + [uid]
  {
    var newTask := Tasks.DEFAULT_TASK.(id := Some(uid));
    assert Tasks.Key(newTask) == "tasks:" + uid;
  }
}

=== FILE: task.dfy ===
/** The task record (lib/task.js): its fields and defaults, the `updateState`
    transition rules, the `complete`/`fail` bookkeeping, the bounded error list,
    the allow-listed JSON projection and the derived `key`, `ttlKey` and `ttl`.
    The clock, the random draw of the backoff and the cron parser are parameters. */
module Tasks {
  import opened Wrappers
  import Json
  import Errors
  import Backoff

  /** The four values of `STATE`. */
  datatype Status = Enqueued | Delayed | Completed | Failed

  /** The string each state is stored as. */
  function StateName(s: Status): string {
    match s
    case Enqueued => "enqueued"
    case Delayed => "delayed"
    case Completed => "completed"
    case Failed => "failed"
  }

  /** No two states share a stored name. */
  lemma StateNamesDistinct(a: Status, b: Status)
    ensures StateName(a) == StateName(b) <==> a == b
  {
    if a != b {
      match a
      case Enqueued => assert StateName(a)[0] == 'e';
      case Delayed => assert StateName(a)[0] == 'd';
      case Completed => assert StateName(a)[0] == 'c';
      case Failed => assert StateName(a)[0] == 'f';
    }
  }

  /** A run or try budget: a count, or `Infinity`. */
  datatype Bound = Finite(limit: nat) | Unbounded

  /** `count >= bound` as JavaScript compares a count with a number or `Infinity`. */
  predicate Reached(count: nat, b: Bound) {
    b.Finite? && count >= b.limit
  }

  /** `maxRuns`/`maxTries` as written by `toJSON`: `Infinity` is not JSON, so it
      is written as -1. */
  function BoundToWire(b: Bound): (w: int)
    ensures w == -1 <==> b.Unbounded?
    ensures b.Finite? ==> w == b.limit
  {
    match b
    case Finite(n) => n
    case Unbounded => -1
  }

  /** `fromJSON`'s reading of a stored bound: -1 is `Infinity`; any other number
      is kept, and a negative one is represented by 0, which every count reaches
      just as it reaches the negative number. */
  function BoundFromWire(w: int): (b: Bound)
    ensures b.Unbounded? <==> w == -1
    ensures forall count: nat {:trigger Reached(count, b)} :: Reached(count, b) <==> (w != -1 && count >= w)
  {
    if w == -1 then Unbounded else if w < 0 then Finite(0) else Finite(w)
  }

  /** `schedule`: a fixed delay in milliseconds, or a cron expression. */
  datatype Schedule = Millis(ms: int) | Cron(expression: string)

  /** JavaScript truthiness of a schedule: a non-zero number or a non-empty string. */
  predicate Scheduled(s: Schedule) {
    match s
    case Millis(ms) => ms != 0
    case Cron(e) => e != ""
  }

  /** The cron parser: milliseconds from now to the next fire of an expression. */
  type CronClock = string -> int

  /** The user payload and the schedule options are carried as opaque JSON text. */
  type Payload = string

  /** A `Task` instance. `keyPrefix`, `explicitTtl` (`_explicitTtl`),
      `maxErrorsLength` and `executionStart` live in memory only; every other field
      is in the allow-list `_fields`. A `None` field is `undefined`. */
  datatype Task = Task(
    id: Option<string>,
    queue: string,
    keyPrefix: string,
    data: Option<Payload>,
    status: Option<Status>,
    schedule: Schedule,
    scheduleOptions: Payload,
    expire: int,
    explicitTtl: bool,
    runs: nat,
    maxRuns: Bound,
    errorCount: nat,
    totalErrors: nat,
    maxTries: Bound,
    errors: seq<Errors.ErrorRecord>,
    maxErrorsLength: nat,
    executionStart: Option<int>,
    firstRun: Option<int>,
    lastRun: Option<int>,
    executionTime: Option<int>,
    executionAverage: Option<real>)

  const DEFAULT_QUEUE: string := "tasks"
  const DEFAULT_KEY_PREFIX: string := "tasks"
  const DEFAULT_MAX_RUNS: Bound := Finite(1)
  const DEFAULT_MAX_TRIES: Bound := Finite(4)
  const DEFAULT_MAX_ERRORS_LENGTH: nat := 20
  const DEFAULT_SCHEDULE_OPTIONS: Payload := "{\"utc\":true}"

  /** `_errorSerializer`'s fallback code and message. */
  const FALLBACK_CODE: Errors.Code := Errors.Num(599)
  const FALLBACK_MESSAGE: string := "Unknown Error"

  /** `new Task()`: `Task.defaults` and nothing else. */
  const DEFAULT_TASK: Task := Task(
    id := None, queue := DEFAULT_QUEUE, keyPrefix := DEFAULT_KEY_PREFIX, data := None,
    status := None, schedule := Millis(0), scheduleOptions := DEFAULT_SCHEDULE_OPTIONS,
    expire := 0, explicitTtl := false, runs := 0, maxRuns := DEFAULT_MAX_RUNS,
    errorCount := 0, totalErrors := 0, maxTries := DEFAULT_MAX_TRIES, errors := [],
    maxErrorsLength := DEFAULT_MAX_ERRORS_LENGTH, executionStart := None, firstRun := None,
    lastRun := None, executionTime := None, executionAverage := None)

  /** The configuration object given to `new Task(config)`; `None` means the key is
      absent, so the default applies. */
  datatype Config = Config(
    id: Option<string>,
    queue: Option<string>,
    keyPrefix: Option<string>,
    data: Option<Payload>,
    status: Option<Status>,
    schedule: Option<Schedule>,
    scheduleOptions: Option<Payload>,
    expire: Option<int>,
    runs: Option<nat>,
    maxRuns: Option<Bound>,
    errorCount: Option<nat>,
    totalErrors: Option<nat>,
    maxTries: Option<Bound>,
    errors: Option<seq<Errors.ErrorRecord>>,
    maxErrorsLength: Option<nat>,
    serializedTask: Option<string>)

  const EMPTY_CONFIG: Config := Config(
    None, None, None, None, None, None, None, None, None, None, None, None, None, None, None, None)

  /** The allow-listed projection written by `toJSON`, one field per entry of
      `_fields`, in that order; the bounds are in their wire form. */
  datatype Record = Record(
    id: Option<string>,
    key: string,
    queue: string,
    data: Option<Payload>,
    runs: nat,
    status: Option<Status>,
    schedule: Schedule,
    scheduleOptions: Payload,
    expire: int,
    errors: seq<Errors.ErrorRecord>,
    errorCount: nat,
    totalErrors: nat,
    maxRuns: int,
    maxTries: int,
    firstRun: Option<int>,
    lastRun: Option<int>,
    executionTime: Option<int>,
    executionAverage: Option<real>)

  // ---------------------------------------------------------------------------
  // Derived keys

  /** `${this._id}`: an undefined id prints as "undefined". */
  function IdText(id: Option<string>): string {
    id.GetOr("undefined")
  }

  /** `key`: `${keyPrefix}:${id}`, the store key of the serialized record. */
  function Key(t: Task): (k: string)
    ensures |k| == |t.keyPrefix| + 1 + |IdText(t.id)|
    ensures k[..|t.keyPrefix|] == t.keyPrefix
    ensures k[|t.keyPrefix|] == ':'
    ensures k[|t.keyPrefix| + 1..] == IdText(t.id)
  {
    t.keyPrefix + ":" + IdText(t.id)
  }

  /** `ttlKey`: `${key}:ttl`, the store key of the expiration trigger. */
  function TtlKey(t: Task): (k: string)
    ensures |k| == |Key(t)| + 4
    ensures k[..|Key(t)|] == Key(t)
    ensures k[|Key(t)|..] == ":ttl"
  {
    Key(t) + ":ttl"
  }

  /** Two tasks with the same prefix share a key exactly when they print the same id. */
  lemma KeyDeterminesId(t: Task, u: Task)
    requires t.keyPrefix == u.keyPrefix
    ensures Key(t) == Key(u) <==> IdText(t.id) == IdText(u.id)
  {
    if Key(t) == Key(u) {
      assert IdText(t.id) == Key(t)[|t.keyPrefix| + 1..];
    }
  }

  // ---------------------------------------------------------------------------
  // ttl

  /** The `ttl` getter, with a numeric schedule read as its own delay: an explicit
      value wins, then a truthy schedule (a fixed delay, or the cron parser's
      offset, where 0 reads as 0), else `expire`. */
  function Ttl(t: Task, next: CronClock): (ttl: int)
    ensures t.explicitTtl ==> ttl == t.expire
    ensures !t.explicitTtl && t.schedule.Millis? && Scheduled(t.schedule) ==> ttl == t.schedule.ms
    ensures !t.explicitTtl && t.schedule.Cron? && Scheduled(t.schedule) ==> ttl == next(t.schedule.expression)
    ensures !t.explicitTtl && !Scheduled(t.schedule) ==> ttl == t.expire
  {
    if t.explicitTtl then t.expire
    else if Scheduled(t.schedule) then
      match t.schedule
      case Millis(ms) => ms
      case Cron(e) => next(e)
    else t.expire
  }

  /** The `ttl` getter as written: `computeNextExecution` answers a bare number for a
      numeric schedule, whose `.ttl` is undefined, so `schedule.ttl || 0` is 0. */
  function TtlAsWritten(t: Task, next: CronClock): (ttl: int)
    ensures !t.explicitTtl && t.schedule.Millis? && Scheduled(t.schedule) ==> ttl == 0
    ensures !(t.schedule.Millis? && Scheduled(t.schedule)) || t.explicitTtl ==> ttl == Ttl(t, next)
  {
    if t.explicitTtl then t.expire
    else if Scheduled(t.schedule) then
      match t.schedule
      case Millis(_) => 0
      case Cron(e) => next(e)
    else t.expire
  }

  /** The `ttl` setter: from then on the getter answers the value set, whatever
      the schedule; nothing but `expire` and the explicit flag changes. */
  function SetTtl(t: Task, value: int): (r: Task)
    ensures forall next: CronClock {:trigger Ttl(r, next)} :: Ttl(r, next) == value
    ensures r.(expire := t.expire, explicitTtl := t.explicitTtl) == t
  {
    t.(explicitTtl := true, expire := value)
  }

  // ---------------------------------------------------------------------------
  // State machine

  /** The stages `updateState` has handlers for; `Join` is a stub handler. */
  datatype Stage = Error | Commit | Join

  /** Which reading of the `ttl` getter a commit consults: the getter as written
      (a numeric schedule reads 0) or the corrected one. */
  datatype TtlGetter = AsWritten | Corrected

  function ReadTtl(t: Task, next: CronClock, getter: TtlGetter): int {
    match getter
    case AsWritten => TtlAsWritten(t, next)
    case Corrected => Ttl(t, next)
  }

  /** `updateState(stage, options)`, reading `this.ttl` through `getter`. On
      `Error`, a task still within its try budget is delayed by the backoff for its
      error count, and one past it fails. On `Commit`, a task that used its run
      budget completes, one with a positive ttl is delayed, and any other is
      enqueued. Only the status and, on a retry, the ttl change. The `join`
      handler is a stub that returns nothing, so the source's call answers
      `undefined`; here it answers the task unchanged. */
  function UpdateState(t: Task, stage: Stage, overrides: Backoff.Overrides, r: real, next: CronClock, getter: TtlGetter)
    : (u: Task)
    requires 0.0 <= r < 1.0
    ensures stage == Error ==> (u.status == Some(Delayed) <==> !Reached(t.errorCount, t.maxTries))
    ensures stage == Error ==> (u.status == Some(Failed) <==> Reached(t.errorCount, t.maxTries))
    ensures stage == Error && !Reached(t.errorCount, t.maxTries) ==>
              ReadTtl(u, next, getter) == Backoff.Compute(t.errorCount, Backoff.DEFAULTS, overrides, r)
    ensures stage == Error && Reached(t.errorCount, t.maxTries) ==> u == t.(status := Some(Failed))
    ensures stage == Commit ==> (u.status == Some(Completed) <==> Reached(t.runs, t.maxRuns))
    ensures stage == Commit ==>
              (u.status == Some(Delayed) <==> !Reached(t.runs, t.maxRuns) && ReadTtl(t, next, getter) > 0)
    ensures stage == Commit ==>
              (u.status == Some(Enqueued) <==> !Reached(t.runs, t.maxRuns) && ReadTtl(t, next, getter) <= 0)
    ensures stage == Commit ==> u == t.(status := u.status)
    ensures stage != Join ==> u.status.Some?
    ensures stage == Join ==> u == t
    ensures u.(status := t.status, expire := t.expire, explicitTtl := t.explicitTtl) == t
  {
    match stage
    case Error =>
      if !Reached(t.errorCount, t.maxTries) then
        SetTtl(t.(status := Some(Delayed)), Backoff.Compute(t.errorCount, Backoff.DEFAULTS, overrides, r))
      else
        t.(status := Some(Failed))
    case Commit =>
      if Reached(t.runs, t.maxRuns) then t.(status := Some(Completed))
      else if ReadTtl(t, next, getter) > 0 then t.(status := Some(Delayed))
      else t.(status := Some(Enqueued))
    case Join => t
  }

  /** The state name a transition stores identifies its outcome: after an error the
      stored name is `failed` exactly when the try budget is used up, and after a
      commit it is `completed` exactly when the run budget is. */
  lemma StoredStateNameTellsOutcome(t: Task, overrides: Backoff.Overrides, r: real, next: CronClock, getter: TtlGetter)
    requires 0.0 <= r < 1.0
    ensures StateName(UpdateState(t, Error, overrides, r, next, getter).status.value) == "failed"
            <==> Reached(t.errorCount, t.maxTries)
    ensures StateName(UpdateState(t, Commit, overrides, r, next, getter).status.value) == "completed"
            <==> Reached(t.runs, t.maxRuns)
  {
    StateNamesDistinct(UpdateState(t, Error, overrides, r, next, getter).status.value, Failed);
    StateNamesDistinct(UpdateState(t, Commit, overrides, r, next, getter).status.value, Completed);
  }

  /** A task with an unbounded try budget is never failed by an error. */
  lemma UnboundedTriesNeverFail(t: Task, overrides: Backoff.Overrides, r: real, next: CronClock, getter: TtlGetter)
    requires 0.0 <= r < 1.0
    requires t.maxTries.Unbounded?
    ensures UpdateState(t, Error, overrides, r, next, getter).status == Some(Delayed)
  {
  }

  /** A task with an unbounded run budget is never completed by a commit. */
  lemma UnboundedRunsNeverComplete(t: Task, overrides: Backoff.Overrides, r: real, next: CronClock, getter: TtlGetter)
    requires 0.0 <= r < 1.0
    requires t.maxRuns.Unbounded?
    ensures UpdateState(t, Commit, overrides, r, next, getter).status != Some(Completed)
  {
  }

  /** The two getters only disagree on a commit of a task with a truthy fixed-delay
      schedule and no explicit ttl: as written it is enqueued, corrected it is
      delayed by its schedule when that is positive. */
  lemma GettersDisagreeOnlyOnFixedDelays(t: Task, overrides: Backoff.Overrides, r: real, next: CronClock)
    requires 0.0 <= r < 1.0
    ensures t.explicitTtl || !(t.schedule.Millis? && Scheduled(t.schedule)) ==>
              UpdateState(t, Commit, overrides, r, next, AsWritten) == UpdateState(t, Commit, overrides, r, next, Corrected)
    ensures !t.explicitTtl && t.schedule.Millis? && Scheduled(t.schedule) && !Reached(t.runs, t.maxRuns) ==>
              UpdateState(t, Commit, overrides, r, next, AsWritten).status == Some(Enqueued)
    ensures !t.explicitTtl && t.schedule.Millis? && t.schedule.ms > 0 && !Reached(t.runs, t.maxRuns) ==>
              UpdateState(t, Commit, overrides, r, next, Corrected).status == Some(Delayed)
  {
  }

  // ---------------------------------------------------------------------------
  // complete

  /** JavaScript truthiness of an optional timestamp. */
  predicate IsSet(v: Option<int>) {
    v.Some? && v.value != 0
  }

  function Sum(xs: seq<int>): int {
    if |xs| == 0 then 0 else xs[0] + Sum(xs[1..])
  }

  lemma {:induction false} SumAppend(xs: seq<int>, x: int)
    ensures Sum(xs + [x]) == Sum(xs) + x
  {
    if |xs| > 0 {
      assert (xs + [x])[1..] == xs[1..] + [x];
      SumAppend(xs[1..], x);
    }
  }

  /** The mean of the execution times seen so far, `undefined` before the first. */
  function Mean(times: seq<int>): Option<real> {
    if |times| == 0 then None else Some(Sum(times) as real / |times| as real)
  }

  /** `executionAverage` as written: `((executionAverage || 0) + executionTime) / runs`. */
  function AverageAsWritten(previous: Option<real>, time: int, runs: nat): real
    requires runs > 0
  {
    (previous.GetOr(0.0) + time as real) / runs as real
  }

  /** The running mean the average is meant to keep: the previous mean weighted by
      the runs before this one, plus this run's time, over the new run count. */
  function NextAverage(previous: Option<real>, time: int, runs: nat): real
    requires runs > 0
  {
    (previous.GetOr(0.0) * (runs - 1) as real + time as real) / runs as real
  }

  /** `NextAverage` keeps `executionAverage` equal to the mean of every execution
      time so far. */
  lemma NextAverageIsMean(times: seq<int>, time: int)
    ensures NextAverage(Mean(times), time, |times| + 1) == Mean(times + [time]).value
  {
    SumAppend(times, time);
    if |times| > 0 {
      var n := |times| as real;
      assert Mean(times).value * n == Sum(times) as real;
    }
  }

  /** Three successful runs of 3 ms each: the average as written ends at 2, the
      mean of the times is 3. */
  lemma AverageAsWrittenIsNotMean()
    ensures AverageAsWritten(Some(AverageAsWritten(Some(AverageAsWritten(None, 3, 1)), 3, 2)), 3, 3) == 2.0
    ensures Mean([3, 3, 3]) == Some(3.0)
    ensures NextAverage(Some(NextAverage(Some(NextAverage(None, 3, 1)), 3, 2)), 3, 3) == 3.0
  {
    assert Sum([3, 3, 3]) == 9 by {
      assert [3, 3, 3][1..] == [3, 3];
      assert [3, 3][1..] == [3];
    }
  }

  /** `complete(successful)` with `Date.now()` reading `clock` on line 235 and
      `now` on line 240. The first clock reading becomes the execution start and,
      when no first run is recorded yet, the first run; a successful run counts one
      more run, clears the consecutive errors and updates the average; an
      unsuccessful one changes neither. */
  function Complete(t: Task, successful: bool, clock: int, now: int): (u: Task)
    ensures successful ==> u.runs == t.runs + 1 && u.errorCount == 0
    ensures !successful ==> u.runs == t.runs && u.errorCount == t.errorCount && u.executionAverage == t.executionAverage
    ensures IsSet(t.firstRun) ==> u.firstRun == t.firstRun
    ensures !IsSet(t.firstRun) && !IsSet(t.executionStart) ==> u.firstRun == Some(clock)
    ensures u.firstRun.Some? && u.executionStart.Some?
    ensures u.executionTime == Some(now - u.executionStart.value)
    ensures u.(runs := t.runs, errorCount := t.errorCount, executionStart := t.executionStart,
               firstRun := t.firstRun, executionTime := t.executionTime,
               executionAverage := t.executionAverage) == t
  {
    var start := if IsSet(t.executionStart) then t.executionStart.value else clock;
    var first := if IsSet(t.firstRun) then t.firstRun else Some(start);
    var time := now - start;
    var timed := t.(executionStart := Some(start), firstRun := first, executionTime := Some(time));
    if successful then
      timed.(runs := t.runs + 1, errorCount := 0,
             executionAverage := Some(NextAverage(t.executionAverage, time, t.runs + 1)))
    else timed
  }

  // ---------------------------------------------------------------------------
  // fail and the error list

  /** The bounded error list: keeps the newest `cap` entries, or all of them when
      `cap` is 0. */
  function Evict<T>(errors: seq<T>, cap: nat): (kept: seq<T>)
    ensures cap == 0 || |errors| <= cap ==> kept == errors
    ensures cap > 0 ==> |kept| <= cap
    ensures cap > 0 && |errors| >= cap ==> |kept| == cap
    ensures |kept| <= |errors|
    ensures kept == errors[|errors| - |kept|..]
  {
    if cap > 0 && |errors| > cap then errors[|errors| - cap..] else errors
  }

  /** The `while (maxErrorsLength && errors.length > maxErrorsLength) errors.shift()`
      loop of `fail`, which drops the oldest entry one at a time. */
  method EvictOldest<T>(errors: seq<T>, cap: nat) returns (kept: seq<T>)
    ensures kept == Evict(errors, cap)
  {
    kept := errors;
    while cap != 0 && |kept| > cap
      invariant |kept| <= |errors|
      invariant kept == errors[|errors| - |kept|..]
      invariant cap == 0 || |errors| <= cap ==> kept == errors
      invariant cap != 0 && |errors| > cap ==> |kept| >= cap
      decreases |kept|
    {
      kept := kept[1..];
    }
  }

  /** `_errorSerializer`: a `TaskRunError` is stored as its own `toJSON()`; any
      other error as `{code, message}` with a falsy code (absent, 0 or "") read as
      599 and a falsy message as "Unknown Error"; a truthy code of either kind is
      kept. */
  function SerializeError(e: Errors.Thrown): (rec: Errors.ErrorRecord)
    ensures e.Raised? ==> rec == Errors.ToJSON(e.error)
    ensures e.Plain? ==> rec.Normalized? && Errors.Truthy(rec.plainCode) && rec.plainMessage != ""
    ensures e.Plain? && e.code.Some? && Errors.Truthy(e.code.value) ==> rec.plainCode == e.code.value
    ensures e.Plain? && (e.code.None? || !Errors.Truthy(e.code.value)) ==> rec.plainCode == FALLBACK_CODE
    ensures e.Plain? && e.message.Some? && e.message.value != "" ==> rec.plainMessage == e.message.value
    ensures e.Plain? && (e.message.None? || e.message.value == "") ==> rec.plainMessage == FALLBACK_MESSAGE
  {
    match e
    case Raised(err) => Errors.ToJSON(err)
    case Plain(code, message) =>
      Errors.Normalized(
        if code.None? || !Errors.Truthy(code.value) then FALLBACK_CODE else code.value,
        if message.None? || message.value == "" then FALLBACK_MESSAGE else message.value)
  }

  /** `fail(error)`: one more consecutive and one more lifetime error, and the
      serialized error appended as the newest entry, the oldest entries dropped
      while the list is longer than a non-zero `maxErrorsLength`. */
  function Fail(t: Task, e: Errors.Thrown): (u: Task)
    ensures u.errorCount == t.errorCount + 1 && u.totalErrors == t.totalErrors + 1
    ensures |u.errors| > 0 && u.errors[|u.errors| - 1] == SerializeError(e)
    ensures t.maxErrorsLength > 0 ==>
              |u.errors| == if |t.errors| < t.maxErrorsLength then |t.errors| + 1 else t.maxErrorsLength
    ensures t.maxErrorsLength == 0 ==> u.errors == t.errors + [SerializeError(e)]
    ensures |u.errors| <= |t.errors| + 1
    ensures u.errors == (t.errors + [SerializeError(e)])[|t.errors| + 1 - |u.errors|..]
    ensures u.(errorCount := t.errorCount, totalErrors := t.totalErrors, errors := t.errors) == t
  {
    var appended := t.errors + [SerializeError(e)];
    var kept := Evict(appended, t.maxErrorsLength);
    assert kept[|kept| - 1] == appended[|appended| - 1] by {
      if t.maxErrorsLength > 0 { assert |kept| > 0; }
    }
    t.(errorCount := t.errorCount + 1, totalErrors := t.totalErrors + 1, errors := kept)
  }

  /** A `TaskRunError` given to `fail` is stored as exactly its `{code, message, ts}`. */
  lemma FailStoresRunErrorJSON(t: Task, message: string, code: Option<Errors.Code>, now: int)
    ensures var u := Fail(t, Errors.Raised(Errors.NewTaskRunError(message, code, now)));
            u.errors[|u.errors| - 1] == Errors.Stamped(code, message, now)
  {
  }

  /** Once the error list fits within a non-zero cap, every later `fail` keeps it
      there; a list that fits is only cut by the oldest entry. */
  lemma FailKeepsErrorsBounded(t: Task, e: Errors.Thrown)
    requires t.maxErrorsLength > 0 && |t.errors| <= t.maxErrorsLength
    ensures |Fail(t, e).errors| <= t.maxErrorsLength
    ensures |t.errors| < t.maxErrorsLength ==> Fail(t, e).errors == t.errors + [SerializeError(e)]
    ensures |t.errors| == t.maxErrorsLength ==> Fail(t, e).errors == t.errors[1..] + [SerializeError(e)]
  {
    var appended := t.errors + [SerializeError(e)];
    if |t.errors| == t.maxErrorsLength {
      assert appended[1..] == t.errors[1..] + [SerializeError(e)];
    }
  }

  // ---------------------------------------------------------------------------
  // Serialization

  /** A list of error entries as `JSON.stringify` writes it, entry by entry. */
  function WireErrors(errors: seq<Errors.ErrorRecord>): (w: seq<Errors.ErrorRecord>)
    ensures |w| == |errors|
    ensures forall i :: 0 <= i < |errors| ==> w[i] == Errors.OnWire(errors[i])
  {
    seq(|errors|, i requires 0 <= i < |errors| => Errors.OnWire(errors[i]))
  }

  /** No entry of the list is an `Error` object. */
  predicate NoParseErrors(errors: seq<Errors.ErrorRecord>) {
    forall i :: 0 <= i < |errors| ==> !errors[i].ParseError?
  }

  /** The wire form changes exactly the parse errors: a list without any is written
      as it is, the written list has none, and writing it twice changes nothing. */
  lemma WireErrorsKeepsPlainEntries(errors: seq<Errors.ErrorRecord>)
    ensures NoParseErrors(errors) <==> WireErrors(errors) == errors
    ensures NoParseErrors(WireErrors(errors))
    ensures WireErrors(WireErrors(errors)) == WireErrors(errors)
  {
    if WireErrors(errors) == errors {
      forall i | 0 <= i < |errors|
        ensures !errors[i].ParseError?
      {
        assert WireErrors(errors)[i] == errors[i];
      }
    }
  }

  /** A record is plain JSON data: none of its error entries is an `Error` object. */
  predicate IsPlainData(rec: Record) {
    NoParseErrors(rec.errors)
  }

  /** `toJSON` (through `_toJSON`): exactly the allow-listed fields, with an
      unbounded budget written as -1 and the derived `key` included; the error
      list is the task's own list, parse errors and all. */
  function ToJSON(t: Task): (rec: Record)
    ensures rec.key == Key(t)
    ensures rec.maxRuns == -1 <==> t.maxRuns.Unbounded?
    ensures rec.maxTries == -1 <==> t.maxTries.Unbounded?
    ensures rec.errors == t.errors
  {
    Record(
      id := t.id, key := Key(t), queue := t.queue, data := t.data, runs := t.runs,
      status := t.status, schedule := t.schedule, scheduleOptions := t.scheduleOptions,
      expire := t.expire, errors := t.errors, errorCount := t.errorCount,
      totalErrors := t.totalErrors, maxRuns := BoundToWire(t.maxRuns),
      maxTries := BoundToWire(t.maxTries), firstRun := t.firstRun, lastRun := t.lastRun,
      executionTime := t.executionTime, executionAverage := t.executionAverage)
  }

  /** A record as `JSON.stringify` prints it: the same fields, with every error
      entry in its wire form, so the printed record is plain data. */
  function Printed(rec: Record): (p: Record)
    ensures p.errors == WireErrors(rec.errors)
    ensures IsPlainData(p)
    ensures IsPlainData(rec) <==> p == rec
    ensures p.(errors := rec.errors) == rec
  {
    WireErrorsKeepsPlainEntries(rec.errors);
    rec.(errors := WireErrors(rec.errors))
  }

  /** Fields outside the allow-list never reach the projection (the prefix only
      through the derived key). */
  lemma ProjectionIgnoresMemoryOnlyFields(t: Task, explicitTtl: bool, cap: nat, start: Option<int>)
    ensures ToJSON(t.(explicitTtl := explicitTtl, maxErrorsLength := cap, executionStart := start)) == ToJSON(t)
  {
  }

  /** `fromJSON(data)`: every allow-listed field is copied onto the task, -1 is read
      back as `Infinity`; `key` has no setter and is not copied, and the `errors`
      setter appends to the task's current list instead of replacing it. So the
      task then projects to `rec` itself, except for its own key, its longer error
      list, and budgets read through `Infinity`. */
  function FromJSON(t: Task, rec: Record): (u: Task)
    ensures u.errors == t.errors + rec.errors
    ensures u.maxRuns == BoundFromWire(rec.maxRuns) && u.maxTries == BoundFromWire(rec.maxTries)
    ensures u.keyPrefix == t.keyPrefix && u.explicitTtl == t.explicitTtl
    ensures u.maxErrorsLength == t.maxErrorsLength && u.executionStart == t.executionStart
    ensures ToJSON(u) == rec.(key := Key(u), errors := t.errors + rec.errors,
                              maxRuns := BoundToWire(BoundFromWire(rec.maxRuns)),
                              maxTries := BoundToWire(BoundFromWire(rec.maxTries)))
  {
    t.(id := rec.id, queue := rec.queue, data := rec.data, runs := rec.runs,
       status := rec.status, schedule := rec.schedule, scheduleOptions := rec.scheduleOptions,
       expire := rec.expire, errors := t.errors + rec.errors, errorCount := rec.errorCount,
       totalErrors := rec.totalErrors, maxRuns := BoundFromWire(rec.maxRuns),
       maxTries := BoundFromWire(rec.maxTries), firstRun := rec.firstRun,
       lastRun := rec.lastRun, executionTime := rec.executionTime,
       executionAverage := rec.executionAverage)
  }

  /** Reading a task's projection into any task `u` restores every allow-listed
      field of the original, the unbounded sentinel included; the memory-only
      fields stay those of `u`, and the errors are `u`'s followed by the original's. */
  lemma FromJSONRestoresProjection(t: Task, u: Task)
    ensures FromJSON(u, ToJSON(t)) ==
            t.(keyPrefix := u.keyPrefix, explicitTtl := u.explicitTtl,
               maxErrorsLength := u.maxErrorsLength, executionStart := u.executionStart,
               errors := u.errors + t.errors)
  {
    assert BoundFromWire(BoundToWire(t.maxRuns)) == t.maxRuns;
    assert BoundFromWire(BoundToWire(t.maxTries)) == t.maxTries;
  }

  /** `serialize()`: `JSON.stringify` of the projection. A parser that reads the
      printed record back gives exactly that record: the projection with its parse
      errors printed as `{}`. */
  function Serialize(t: Task, codec: Json.Codec<Record>): (text: string)
    ensures Json.RoundTrips(codec, Printed(ToJSON(t))) ==>
              text != "" && codec.decode(text) == Success(Printed(ToJSON(t)))
    ensures Json.RoundTrips(codec, Printed(ToJSON(t))) && NoParseErrors(t.errors) ==>
              codec.decode(text) == Success(ToJSON(t))
  {
    codec.encode(Printed(ToJSON(t)))
  }

  /** `deserialize(data)`: parsed text is read with `fromJSON`; text that does not
      parse leaves every field alone and appends the parser's error. */
  function Deserialize(t: Task, text: string, codec: Json.Codec<Record>): (u: Task)
    ensures codec.decode(text).Failure? ==> u == t.(errors := t.errors + [Errors.ParseError(codec.decode(text).error)])
    ensures codec.decode(text).Success? ==> u == FromJSON(t, codec.decode(text).value)
  {
    match codec.decode(text)
    case Failure(reason) => t.(errors := t.errors + [Errors.ParseError(reason)])
    case Success(rec) => FromJSON(t, rec)
  }

  /** `task.deserialize(task.serialize())` gives the task back, the unbounded
      budgets included, except that its error list is followed by its own wire
      form: a copy of itself when it holds no parse error, and with every parse
      error turned into `{}` otherwise. */
  lemma DeserializeSerialized(t: Task, codec: Json.Codec<Record>)
    requires Json.RoundTrips(codec, Printed(ToJSON(t)))
    ensures Deserialize(t, Serialize(t, codec), codec) == t.(errors := t.errors + WireErrors(t.errors))
    ensures NoParseErrors(t.errors) ==> Deserialize(t, Serialize(t, codec), codec) == t.(errors := t.errors + t.errors)
  {
    FromJSONRestoresProjection(t.(errors := WireErrors(t.errors)), t);
  }

  /** The record `new Task(config)` starts from: every config key that is present
      wins, every absent one takes its default, and the fields a config cannot set
      (`_explicitTtl` and the run telemetry) start out unset. */
  function Overlay(c: Config): (t: Task)
    ensures c == EMPTY_CONFIG ==> t == DEFAULT_TASK
    ensures t.id == c.id && t.data == c.data && t.status == c.status
    ensures t.queue == c.queue.GetOr(DEFAULT_TASK.queue) && t.keyPrefix == c.keyPrefix.GetOr(DEFAULT_TASK.keyPrefix)
    ensures t.schedule == c.schedule.GetOr(DEFAULT_TASK.schedule)
    ensures t.scheduleOptions == c.scheduleOptions.GetOr(DEFAULT_TASK.scheduleOptions)
    ensures t.expire == c.expire.GetOr(DEFAULT_TASK.expire) && t.runs == c.runs.GetOr(DEFAULT_TASK.runs)
    ensures t.maxRuns == c.maxRuns.GetOr(DEFAULT_TASK.maxRuns) && t.maxTries == c.maxTries.GetOr(DEFAULT_TASK.maxTries)
    ensures t.errorCount == c.errorCount.GetOr(DEFAULT_TASK.errorCount)
    ensures t.totalErrors == c.totalErrors.GetOr(DEFAULT_TASK.totalErrors)
    ensures t.errors == c.errors.GetOr(DEFAULT_TASK.errors)
    ensures t.maxErrorsLength == c.maxErrorsLength.GetOr(DEFAULT_TASK.maxErrorsLength)
    ensures !t.explicitTtl && t.executionStart.None? && t.firstRun.None? && t.lastRun.None?
    ensures t.executionTime.None? && t.executionAverage.None?
  {
    DEFAULT_TASK.(
      id := c.id, queue := c.queue.GetOr(DEFAULT_QUEUE),
      keyPrefix := c.keyPrefix.GetOr(DEFAULT_KEY_PREFIX), data := c.data,
      status := c.status, schedule := c.schedule.GetOr(DEFAULT_TASK.schedule),
      scheduleOptions := c.scheduleOptions.GetOr(DEFAULT_SCHEDULE_OPTIONS),
      expire := c.expire.GetOr(0), runs := c.runs.GetOr(0),
      maxRuns := c.maxRuns.GetOr(DEFAULT_MAX_RUNS), errorCount := c.errorCount.GetOr(0),
      totalErrors := c.totalErrors.GetOr(0), maxTries := c.maxTries.GetOr(DEFAULT_MAX_TRIES),
      errors := c.errors.GetOr([]),
      maxErrorsLength := c.maxErrorsLength.GetOr(DEFAULT_MAX_ERRORS_LENGTH))
  }

  /** `new Task(config)`: the defaults overlaid with the given keys, then hydrated
      from `serializedTask` when that is a non-empty string; an absent or empty
      `serializedTask` leaves the overlay as it is. */
  function NewTask(c: Config, codec: Json.Codec<Record>): (t: Task)
    ensures c.serializedTask.None? || c.serializedTask.value == "" ==> t == Overlay(c)
    ensures c.serializedTask.Some? && c.serializedTask.value != "" ==>
              t == Deserialize(Overlay(c), c.serializedTask.value, codec)
    ensures c.serializedTask.Some? && codec.decode(c.serializedTask.value).Success? ==>
              t.keyPrefix == Overlay(c).keyPrefix && t.maxErrorsLength == Overlay(c).maxErrorsLength
  {
    var t := Overlay(c);
    if c.serializedTask.Some? && c.serializedTask.value != "" then
      Deserialize(t, c.serializedTask.value, codec)
    else t
  }

  /** `new Task({ serializedTask })` for a value read from the store (`None` when
      the key held nothing). */
  function Hydrate(stored: Option<string>, codec: Json.Codec<Record>): (t: Task)
    ensures stored.None? ==> t == DEFAULT_TASK
    ensures stored.Some? && codec.decode(stored.value).Failure? && stored.value != "" ==>
              t == DEFAULT_TASK.(errors := [Errors.ParseError(codec.decode(stored.value).error)])
  {
    NewTask(EMPTY_CONFIG.(serializedTask := stored), codec)
  }

  /** A task hydrated from its own serialized text prints the same record again
      when its key prefix is the default one (the prefix itself is not stored); its
      errors are those of the original in their wire form, so it projects to the
      original's projection exactly when the original holds no parse error. */
  lemma HydrateSerialized(t: Task, codec: Json.Codec<Record>)
    requires Json.RoundTrips(codec, Printed(ToJSON(t)))
    requires t.keyPrefix == DEFAULT_KEY_PREFIX
    ensures Hydrate(Some(Serialize(t, codec)), codec).id == t.id
    ensures Hydrate(Some(Serialize(t, codec)), codec).queue == t.queue
    ensures Hydrate(Some(Serialize(t, codec)), codec).errors == WireErrors(t.errors)
    ensures Key(Hydrate(Some(Serialize(t, codec)), codec)) == Key(t)
    ensures Printed(ToJSON(Hydrate(Some(Serialize(t, codec)), codec))) == Printed(ToJSON(t))
    ensures Serialize(Hydrate(Some(Serialize(t, codec)), codec), codec) == Serialize(t, codec)
    ensures ToJSON(Hydrate(Some(Serialize(t, codec)), codec)) == ToJSON(t) <==> NoParseErrors(t.errors)
  {
    FromJSONRestoresProjection(t.(errors := WireErrors(t.errors)), DEFAULT_TASK);
    WireErrorsKeepsPlainEntries(t.errors);
    var h := Hydrate(Some(Serialize(t, codec)), codec);
    if ToJSON(h) == ToJSON(t) {
      assert h.errors == t.errors;
    }
  }

  /** A record that does not parse yields a default task holding the parser's
      error; once that task is stored and read back, the entry has become `{}`. */
  lemma CorruptRecordComesBackAsEmptyObject(text: string, codec: Json.Codec<Record>)
    requires text != "" && codec.decode(text).Failure?
    requires Json.RoundTrips(codec, Printed(ToJSON(Hydrate(Some(text), codec))))
    ensures Hydrate(Some(text), codec).errors == [Errors.ParseError(codec.decode(text).error)]
    ensures Hydrate(Some(Serialize(Hydrate(Some(text), codec), codec)), codec).errors == [Errors.EmptyObject]
  {
    HydrateSerialized(Hydrate(Some(text), codec), codec);
  }

  // ---------------------------------------------------------------------------
  // The numeric-schedule ttl

  /** With the getter as written, a task on a fixed 5000 ms schedule reads a ttl of
      0, so a commit enqueues it at once; the corrected getter reads 5000 and a
      commit delays it. */
  lemma NumericScheduleDelayedOnlyWhenCorrected(next: CronClock, r: real)
    requires 0.0 <= r < 1.0
    ensures var t := DEFAULT_TASK.(id := Some("t3"), schedule := Millis(5000), maxRuns := Unbounded);
            TtlAsWritten(t, next) == 0 &&
            Ttl(t, next) == 5000 &&
            UpdateState(t, Commit, Backoff.NO_OVERRIDES, r, next, AsWritten).status == Some(Enqueued) &&
            UpdateState(t, Commit, Backoff.NO_OVERRIDES, r, next, Corrected).status == Some(Delayed)
  {
  }
}

=== FILE: wrappers.dfy ===
/** Optional values and results shared by the model: `Option` stands for a
    JavaScript value that may be `undefined`/`null`, `Result` for an operation that
    answers either a value or an error. */
module Wrappers {

  datatype Option<+T> = None | Some(value: T) {

    /** The wrapped value, or `default` when there is none. */
    function GetOr(default: T): T {
      match this
      case Some(v) => v
      case None => default
    }
  }

  datatype Result<+T, +E> = Success(value: T) | Failure(error: E)
}
